=== FILE: README.md ===
# Blameless.Configuration in Dafny

A model of the settings store of Blameless.Configuration, a Unity package,
with proofs about it. The package stores settings as text, one `key = value`
line each, and its main class is `Configuration`. That class keeps the
committed settings and an undo value for every key changed since the file was
last read or written. Typed converters turn stored text into values and back.
The optional `OnChange` callback fires on every effective write through
`Set` and on every key `Revert()` restores; `Clear` and reading the file
write without calling it.

On top of the store sit two static facades:

- `Settings` keeps a directory from setting keys to `Binding`s. A binding names
  a public field or property of a live component. `Settings` pushes every
  stored value into the members bound to it, and it refreshes the components
  that ask to be refreshed.
- `BInput` keeps action-to-key mappings in a second store. It falls back to
  `KeyCode.None` for actions that are unmapped or mapped to an unknown key,
  and it filters the key codes a player may bind by name prefix.

## Modules

| file | module | models |
|---|---|---|
| wrappers.dfy | Wrappers | `Option` (a C# null) and `Result` (a thrown exception) |
| exceptions.dfy | Exceptions | the exception kinds the code throws; which of them are `ArgumentException`s |
| lists.dfy | Lists | duplicate-free sequences; a dictionary's enumeration order of its keys |
| types.dfy | Types | the value types (int, bool, string, `Resolution`, `KeyCode`) and their 32-bit ints |
| text.dfy | Text | `String.Trim` and `String.Split(char)` |
| decimal.dfy | Decimal | `Int32.ToString()` and `Int32.Parse` |
| converters.dfy | Converters | the converters, the converter registry, and the type names that bindings serialise |
| lineformat.dfy | LineFormat | the line format of `ReadSettings` and `WriteSettings` |
| configuration.dfy | Configuration | the `Configuration` store |
| binding.dfy | Bindings | `Binding`: the member write, and the type name kept across serialisation |
| bindingset.dfy | BindingSets | `BindingSet.allReferenced` registration |
| settings.dfy | Settings | the `Settings` facade: directory, refreshables, `SyncValue`, `PushBindingSet`, `Rebind` |
| binput.dfy | BInput | `BInput.SetValue`, `GetKeyCode` and the valid-key filter |

Modelling choices:

- The store's two dictionaries are null until `Initialize` creates them.
  `Store.loaded` records whether they exist; before that, every store
  operation that reads them fails with a null reference.
- The store is an immutable record. Every operation returns the new store and
  the `OnChange` calls it made, in order; a call is recorded only when a
  callback is installed (`observed`).
- Static state becomes a record that each operation takes and returns. For
  `Settings` this is `Settings.Runtime`: the store, the directory, the
  refreshables, `BindingSet.allReferenced` and `BindingSet.onActivated`, the
  live components, and a log of the `Refresh()` calls.
- Reflection becomes an explicit table. Each component has its fields and its
  properties, each with a type and a value. It also lists the properties that
  have no setter and says whether it implements `IBindingRefreshable`.
- A component that is not in the `World` map is a null reference.
- `IBindingRefreshable.Refresh()` is assumed to change nothing but the log of
  its calls. The C# calls it before the binding's sync
  (`Assets/Scripts/Settings/Settings.cs`, lines 97 and 100); since it changes no member in the model, the
  log does not record where it fell relative to the sync.
- `Type.GetType` sees the five modelled types and the names of the other types
  the process has loaded (`others`), such as float and `Color`; these resolve
  to `OtherTag(name)`, a type no converter of the model handles.
- A thrown exception is a `Failure`, and a caught one is a branch of the model.
- A dictionary's enumeration order is a parameter. `Lists.Enumerates` requires
  it to list each key exactly once.
- The file's contents are a parameter: the lines that `ReadSettings` would
  read.

The central invariant is `Configuration.Tracks(st, base)`. It says a key is
changed exactly when its value differs from the baseline `base`, and that its
undo value is the baseline value. The baseline is the settings as last read
or written.

## Model

| member | source | states |
|---|---|---|
| Text.TrimIdempotent | Assets/Scripts/Configuration/Converters.cs:5-13 | trimmed text has no white space at either end; trimming twice is trimming once; trimmed text is left alone |
| Text.TrimPadded | Assets/Scripts/Configuration/Configuration.cs:236 | white padding around text that does not start or end with white space is removed exactly |
| Text.Split | Assets/Scripts/Configuration/Configuration.cs:234 | `Split` gives one more piece than there are separators, and no piece contains the separator |
| Text.JoinSplit | Assets/Scripts/Configuration/Configuration.cs:234 | joining the pieces with the separator gives the split text back |
| Text.SplitJoin | Assets/Scripts/Settings/Settings.cs:148 | splitting a join of pieces free of the separator gives the pieces back |
| Decimal.Render | Assets/Scripts/Configuration/Converters.cs:16-18 | an int's decimal text is non-empty, ends in a digit, starts with a digit or '-', and has no 'x' or '=' |
| Decimal.ParseRender | Assets/Scripts/Configuration/Converters.cs:15-23 | `Int32.Parse` of any int's decimal text gives the int back, `Int32.MinValue` included |
| Decimal.ParseRejectsNonNumeric | Assets/Scripts/Configuration/Converters.cs:20-22 | text holding a character that is not a digit, a sign or white space fails with a format error |
| Decimal.ParseOverflows | Assets/Scripts/Configuration/Converters.cs:20-22 | digits for a number above `Int32.MaxValue` fail with an overflow error |
| Converters.ConvertFrom | Assets/Scripts/Configuration/Converter.cs:7-9 | encoding fails with an invalid cast exactly when the value is not of the converter's type |
| Converters.ConvertTo | Assets/Scripts/Configuration/Converter.cs:11-13 | whatever a converter decodes is a value of that converter's type |
| Converters.RoundTrip | Assets/Scripts/Configuration/Converter.cs:6-22 | for every value a converter reproduces, decoding its encoding gives it back |
| Converters.StringTrims | Assets/Scripts/Configuration/Converters.cs:5-13 | the string converter trims on both sides, and decoding text or its trimmed form agree |
| Converters.IntegerRoundTrip | Assets/Scripts/Configuration/Converters.cs:15-23 | decoding the encoding of any int gives it back |
| Decimal.ParseSyntax | Assets/Scripts/Configuration/Converters.cs:20-22 | `Int32.Parse` succeeds only when the text, without surrounding white space, is an optional sign and one or more digits; any other text (empty, a lone sign, inner white space, a misplaced sign) is a format error |
| Converters.IntegerRejects | Assets/Scripts/Configuration/Converters.cs:20-22 | the integer converter rejects, with a format error, text holding a character that is not a digit, a sign or white space |
| Converters.BooleanCodec | Assets/Scripts/Configuration/Converters.cs:35-43 | true encodes as "1" and false as "0"; every text decodes, and only "1" decodes to true; the round trip holds; re-encoding a decoded value gives "1" or "0" |
| Converters.ResolutionRoundTrip | Assets/Scripts/Settings/Settings.cs:141-152 | decoding "{w}x{h}" gives back (w, h) |
| Converters.ResolutionIgnoresTail | Assets/Scripts/Settings/Settings.cs:148-150 | pieces after the second 'x' are ignored |
| Converters.ResolutionNeedsTwoParts | Assets/Scripts/Settings/Settings.cs:148-150 | a width without an 'x' fails with an index error |
| Converters.AddConverter | Assets/Scripts/Configuration/Configuration.cs:82-90 | the converter is filed under its own type, replacing any other; other types are untouched; the warning fires exactly when one was replaced |
| Converters.DefaultRegistry | Assets/Scripts/Configuration/Configuration.cs:36-40 | the constructor registers the int, bool and string converters, each under its own type |
| Converters.ResolveType | Assets/Scripts/Configuration/Binding.cs:31 | a name resolves to a type whose qualified name it is, that type is loaded, and the result is null exactly when neither a modelled type nor another loaded type has that name |
| LineFormat.ParseLine | Assets/Scripts/Configuration/Configuration.cs:233-237 | a line is kept exactly when it holds exactly one '='; its key and value are trimmed and contain no '=' |
| LineFormat.LineRoundTrip | Assets/Scripts/Configuration/Configuration.cs:233-252 | a written `key\t=\tvalue` line reads back as (key, value) for a storable key and value, and it holds no line break |
| LineFormat.CollectInto | Assets/Scripts/Configuration/Configuration.cs:235-236 | adding the pairs succeeds exactly when no key repeats or is already present, and a repeat fails as a duplicate key; on success the result holds every old and every new pair and nothing else |
| LineFormat.FormatSettings | Assets/Scripts/Configuration/Configuration.cs:243-258 | one written line per key, in enumeration order |
| LineFormat.EntriesOfFormatted | Assets/Scripts/Configuration/Configuration.cs:233-252 | reading a written file yields its pairs in the order they were written |
| LineFormat.WriteReadRoundTrip | Assets/Scripts/Configuration/Configuration.cs:224-258 | reading a written file gives the same settings, for storable keys and values |
| Configuration.Create | Assets/Scripts/Configuration/Configuration.cs:29-41 | a new store has the default converters and no callback, and its dictionaries are not yet created |
| Configuration.Load | Assets/Scripts/Configuration/Configuration.cs:224-241 | reading succeeds exactly when the file parses; the dictionaries then exist, the settings are the file's, nothing is changed, and the store tracks them as its baseline |
| Configuration.Reset | Assets/Scripts/Configuration/Configuration.cs:131-134 | before `Initialize` it throws a null reference; otherwise it succeeds exactly when the lines parse, and the store then holds their settings with nothing changed; the lines are the default file, which `LoadDefault` has copied over the saved one |
| Configuration.UnloadedThrows | Assets/Scripts/Configuration/Configuration.cs:92-183 | before `Initialize`, `Get`, `Set`, `Save`, `Reset`, `HasChanged`, `Revert()`, `Revert(key)`, `KeepChanged` and `Clear` all throw |
| Configuration.SetValue | Assets/Scripts/Configuration/Configuration.cs:196-214 | it throws exactly when the store is not loaded; a missing key or an equal value is a no-op; otherwise the value is written, the undo value is captured on the first change and kept afterwards, writing the undo value back forgets the change, the callback fires, and no other key changes |
| Configuration.Revert | Assets/Scripts/Configuration/Configuration.cs:136-145 | every changed key gets its undo value back, other keys keep theirs, one callback call is made per changed key in enumeration order, the key set is kept, and nothing is left changed |
| Configuration.RevertKey | Assets/Scripts/Configuration/Configuration.cs:147-151 | on an unchanged key this is a no-op; on a changed key of a consistent store, the undo value is written back, the change is forgotten, and the callback fires |
| Configuration.KeepChanged | Assets/Scripts/Configuration/Configuration.cs:173-177 | the key's undo value is forgotten; no value and no other change is touched |
| Configuration.Clear | Assets/Scripts/Configuration/Configuration.cs:179-183 | an existing key is set to "" without touching the changes |
| Configuration.Save | Assets/Scripts/Configuration/Configuration.cs:125-129 | before `Initialize` it throws; when something changed, the settings are written in enumeration order and every change is forgotten; otherwise nothing is written and the store is untouched |
| Configuration.HasChanged | Assets/Scripts/Configuration/Configuration.cs:153-155 | whether some key is changed; before `Initialize` it throws |
| Configuration.HasChangedKey | Assets/Scripts/Configuration/Configuration.cs:157-159 | whether the key is changed; before `Initialize` it throws |
| Configuration.HasChangedMeansDiffers | Assets/Scripts/Configuration/Configuration.cs:153-159 | on a store tracking its baseline, `HasChanged()` tells whether any setting differs from the baseline and `HasChanged(key)` whether that key's does |
| Configuration.GetValue | Assets/Scripts/Configuration/Configuration.cs:216-222 | the stored text of a key, or null exactly when the key is missing |
| Configuration.Get | Assets/Scripts/Configuration/Configuration.cs:92-106 | strings bypass the converters, and a missing key gives null; other types fail without a converter and otherwise decode the stored text |
| Configuration.Set | Assets/Scripts/Configuration/Configuration.cs:108-119 | strings are written as they are; other types fail without a converter and otherwise write their encoding |
| Configuration.SetThenGet | Assets/Scripts/Configuration/Configuration.cs:92-119 | `Get` of what `Set` wrote to an existing key returns it, for every value its converter reproduces |
| Configuration.SetValueTracks | Assets/Scripts/Configuration/Configuration.cs:196-214 | `SetValue` keeps the store tracking its baseline |
| Configuration.SetValueTwice | Assets/Scripts/Configuration/Configuration.cs:197-198 | writing the same value again does nothing and calls nobody |
| Configuration.RevertRestoresBaseline | Assets/Scripts/Configuration/Configuration.cs:136-145 | `Revert()` brings a tracking store back to its baseline with nothing changed |
| Configuration.RevertKeyRestoresBaseline | Assets/Scripts/Configuration/Configuration.cs:147-151 | `Revert(key)` brings the key back to its baseline value, leaves it unchanged, and keeps the store tracking its baseline |
| Configuration.ConsistencyPreserved | Assets/Scripts/Configuration/Configuration.cs:136-214 | "every changed key is a setting that differs from its undo value" survives `SetValue`, `Revert()`, `Revert(key)` and `KeepChanged` |
| Configuration.KeepChangedRebases | Assets/Scripts/Configuration/Configuration.cs:173-177 | `KeepChanged` makes the key's current value its new baseline |
| Configuration.ClearBreaksConsistency | Assets/Scripts/Configuration/Configuration.cs:179-183 | clearing a key whose undo value is "" breaks the invariant, and `Revert(key)` can no longer clear it |
| Configuration.SaveRebases | Assets/Scripts/Configuration/Configuration.cs:125-129 | after `Save` the store tracks its settings as the new baseline |
| Configuration.SessionTracksBaseline | Assets/Scripts/Configuration/Configuration.cs:136-214 | after any sequence of writes from a freshly read store, a key is changed exactly when it differs from the file, its undo value is the file's value, and `Revert()` then brings every value of the file back |
| Configuration.SaveThenLoad | Assets/Scripts/Configuration/Configuration.cs:224-258 | reading back what `Save` wrote gives the same settings with nothing changed, for storable keys and values (no '=', no line break, no surrounding white space); a string `Set` stored otherwise is not covered, and does not survive |
| Bindings.SetValue | Assets/Scripts/Configuration/Binding.cs:17-28 | null is ignored; a null component throws; the field is written if there is one, else the property; a member of another type or a property without a setter throws; a name with neither member changes nothing; nothing else changes |
| Bindings.SetValueKeepsOthers | Assets/Scripts/Configuration/Binding.cs:19-27 | a write through a binding leaves every other member's value alone |
| Bindings.SetBindingType | Assets/Scripts/Configuration/Binding.cs:36-42 | the setter stores the type and its assembly-qualified name |
| Bindings.OnAfterDeserialize | Assets/Scripts/Configuration/Binding.cs:30-32 | after deserialisation the type is one whose name is the stored name, and it is null exactly when no loaded type has that name |
| Bindings.TypeSurvivesSerialisation | Assets/Scripts/Configuration/Binding.cs:30-42 | a type set through the setter is the type found again after deserialisation, for every type the process has loaded |
| BindingSets.Register | Assets/Scripts/Configuration/BindingSet.cs:14-20 | the list is created when null; the group ends up in it, appended at the end if it was new; a duplicate-free list stays duplicate-free |
| BindingSets.RegisterIdempotent | Assets/Scripts/Configuration/BindingSet.cs:18-20 | registering a group a second time changes nothing |
| Settings.SyncBinding | Assets/Scripts/Settings/Settings.cs:120-128 | one binding throws only when it has no type and no component; a failed conversion or write is skipped; a writable member receives the decoded value |
| Settings.UnconvertedTypeSkipped | Assets/Scripts/Settings/Settings.cs:121-125 | a binding of a loaded type with no converter (float, `Color`) is typed after deserialisation and skipped without throwing, even with a null component |
| Settings.SyncBindingKeeps | Assets/Scripts/Settings/Settings.cs:120-128 | syncing one binding leaves every other member's value alone |
| Settings.SyncAll | Assets/Scripts/Settings/Settings.cs:119-129 | the loop throws, with a null reference, exactly when some binding has neither a type nor a component; it changes no component's shape |
| Settings.SyncValue | Assets/Scripts/Settings/Settings.cs:117-133 | a key without an entry writes nothing; otherwise the result is as for `SyncAll` |
| Settings.SkipsFailingBinding | Assets/Scripts/Settings/Settings.cs:121-125 | a typed binding that cannot be written is skipped, and its siblings are synced as if it were absent |
| Settings.SyncDelivers | Assets/Scripts/Settings/Settings.cs:117-129 | every binding whose member accepts the decoded value holds it after the sync, unless a later binding writes the same member |
| Settings.SyncKey | Assets/Scripts/Settings/Settings.cs:117-118 | before `Initialize` the directory is null and the sync throws; afterwards it fails exactly when `SyncValue` on the current directory does, and only the components' members change |
| Settings.PushBinding | Assets/Scripts/Settings/Settings.cs:88-101 | the binding is appended to its source's list, created if absent; a new refreshable component is added and refreshed once; the world changes no shape; before `Initialize`, or while the store is not loaded, it throws |
| Settings.PushBindingResyncs | Assets/Scripts/Settings/Settings.cs:100 | pushing a binding re-syncs every binding already under its source with the stored text |
| Settings.PushAll | Assets/Scripts/Settings/Settings.cs:87-102 | pushing a non-empty group before `Initialize` throws; the store and the groups are untouched |
| Settings.PushAllDirectory | Assets/Scripts/Settings/Settings.cs:87-94 | each key's list becomes its old list followed by the group's bindings for that key, in order |
| Settings.PushAllSucceeds | Assets/Scripts/Settings/Settings.cs:87-102 | after `Initialize`, pushing cannot throw while every binding has a type or a component |
| Settings.PushAllRefreshables | Assets/Scripts/Settings/Settings.cs:95-98 | the refreshables only grow at the end, and `Refresh()` is called exactly on the components added, in order |
| Settings.PushAllRefreshablesSet | Assets/Scripts/Settings/Settings.cs:95-98 | the refreshables stay duplicate-free and gain exactly the group's refreshable components |
| Settings.PushSets | Assets/Scripts/Settings/Settings.cs:112-114 | pushing the groups in turn leaves the store and the groups untouched and changes no component's shape |
| Settings.Rebind | Assets/Scripts/Settings/Settings.cs:104-115 | it throws before `Initialize`; with no group referenced, the directory and the refreshables end up empty |
| Settings.PushSetsMember | Assets/Scripts/Settings/Settings.cs:95-98 | after pushing several groups a component is tracked exactly when it was before or it is refreshable and some binding of the groups targets it |
| Settings.RebindRebuilds | Assets/Scripts/Settings/Settings.cs:104-115 | after `Rebind` each key's list is exactly the referenced groups' bindings for it, in order, whatever was there before; the refreshables are duplicate-free and are exactly the refreshable components those bindings target, with stale ones dropped |
| Settings.Activate | Assets/Scripts/Configuration/BindingSet.cs:13-25 | `Awake` registers the group; without the callback nothing else changes, with it the group is pushed |
| Settings.ActivateTwice | Assets/Scripts/Configuration/BindingSet.cs:22-24 | a group that wakes twice is registered once but filed twice |
| Settings.Deliver | Assets/Scripts/Settings/Settings.cs:34-36 | the store's callback calls reach `SyncValue` only when it is the installed callback, and they change nothing but the components' values |
| Settings.Set | Assets/Scripts/Settings/Settings.cs:44-46 | the store's `Set` is applied, and its failures propagate; only the store and the components' member values change, and the components keep their shape |
| Settings.SetSyncs | Assets/Scripts/Settings/Settings.cs:44-46 | an effective `Set` puts the decoded new text into every member bound to the key that accepts it |
| Settings.TriggerRefreshables | Assets/Scripts/Settings/Settings.cs:135-139 | `Refresh()` is called once on every tracked component, in order, after the earlier calls; only the log changes; before `Initialize` it throws |
| Settings.Revert | Assets/Scripts/Settings/Settings.cs:56-59 | the store reverts and then every tracked component is refreshed; only the store, the member values and the refresh log change; it throws while the store is not loaded, and once `Initialize` has run it cannot fail unless `SyncValue` is the callback |
| Settings.RevertKey | Assets/Scripts/Settings/Settings.cs:61-64 | the key reverts in the store and then every tracked component is refreshed; only the store, the member values and the refresh log change; it throws while the store is not loaded, and once `Initialize` has run it cannot fail unless `SyncValue` is the callback |
| Settings.RevertKeySyncs | Assets/Scripts/Settings/Settings.cs:61-64 | reverting a changed key puts the decoded restored text into every member bound to the key that accepts it, unless a later binding writes the same member |
| Settings.RevertRestores | Assets/Scripts/Settings/Settings.cs:56-59 | `Settings.Revert()` brings a tracking store back to its baseline and refreshes every tracked component once more |
| Settings.Boot | Assets/Scripts/Settings/Settings.cs:17-22 | the static constructor registers the default and resolution converters, installs no callback, leaves the store unloaded, and sets `onActivated` |
| Settings.BootThrows | Assets/Scripts/Settings/Settings.cs:44-64 | before `Initialize`, `Settings.Set`, `Settings.Revert()` and `Settings.Revert(key)` throw, whatever the key and value |
| Settings.Initialize | Assets/Scripts/Settings/Settings.cs:28-42 | on success the directory exists and the store is loaded, `SyncValue` is the callback unless another one was installed, the settings are the file's, and nothing is changed |
| Settings.Reset | Assets/Scripts/Settings/Settings.cs:78-81 | the default file (copied over the saved one by `LoadDefault`) is read, nothing is changed, and the callback is kept; while the store is not loaded it throws a null reference, and before `Initialize` it fails |
| BInput.Boot | Assets/Scripts/Settings/BInput.cs:18-21 | the mapping store is loaded, with the default converters plus the KeyCode one, and the file's settings |
| BInput.SetValue | Assets/Scripts/Settings/BInput.cs:64-70 | a missing action, or a store that is not loaded, throws a null reference; an equal key forgets the action's undo value and writes nothing; a different key is the store's string `Set` |
| BInput.SetValueRebases | Assets/Scripts/Settings/BInput.cs:64-70 | writing the current key again makes it the baseline; writing another key keeps the baseline |
| BInput.GetKeyCode | Assets/Scripts/Settings/BInput.cs:101-112 | before `Initialize` it throws; an unmapped action gives `None`; a mapped, known name ("None" included) is returned with the store untouched; without the KeyCode converter it throws |
| BInput.UnmappedActionResets | Assets/Scripts/Settings/BInput.cs:101-112 | a name the enum lacks is overwritten with "None", which is returned, and the action counts as changed unless its baseline was "None" |
| BInput.ValidKeys | Assets/Scripts/Settings/BInput.cs:27 | the filter keeps only names of the enum that start with no invalid prefix |
| BInput.ValidKeysComplete | Assets/Scripts/Settings/BInput.cs:27 | every enum name that starts with no invalid prefix is kept |
| BInput.ValidKeyCodes | Assets/Scripts/Settings/BInput.cs:26-27 | the loop computes the filter: a name is kept exactly when it is an enum name with no invalid prefix, in the enum's order |
| BInput.DefaultFilter | Assets/Scripts/Settings/BInput.cs:10 | the default prefixes exclude the mouse, joystick and function keys, and the letter key F too; "A" and "Space" pass |

## Left out

- File access is not modelled: `LoadDefault`, `ConfigExists`, opening and closing streams, and the paths `ConfigPath`, `BuildDestination` and `Normalize`. The lines the file holds are a parameter of `Configuration.Load`, `Configuration.Reset`, `Settings.Initialize`, `Settings.Reset` and `BInput.Boot`; for the two `Reset`s they are the default file that `LoadDefault` copied in place.
- `FloatConverter` and `ColorConverter` are left out, because they need floating-point parsing and formatting. For the same reason the default registry has no float entry.
- `BInput.Axis`, `GetAxis`, `GetHorizontalAxis` and `GetAction*` are left out: they use floats, frame time and Unity's input polling.
- The editor drawer and `Initializer.Start` are host UI and lifecycle, and are not part of this model.
- `Debug.Log` and its warnings are no-ops.
- What a component's `Refresh()` does is not modelled: it is recorded in the log and changes nothing, so any member it writes and the order of that write against the sync that follows are not covered.
- An exception thrown in the middle of a loop leaves partial state behind in C#, and the model does not keep it: the result is just the `Failure`. This covers `SyncValue` throwing inside `Revert()`'s loop, a duplicate key after some lines of `ReadSettings` were added, `PushBindingSet` stopping halfway, and `Initialize` failing after it reset the directory. It also covers `Settings.Set` and `Settings.RevertKey`: `SetValue` writes the store before `OnChange` runs `SyncValue`, so when that sync throws, the C# store keeps the write while the model returns only the `Failure`.
- Settings.Activate: a failing push loses the registration too. `BindingSet.Awake` registers the group before `onActivated` pushes it, so when that push throws (before `Initialize`, or from `SyncValue`), the C# keeps the registration and a later `Rebind` pushes the group, while the model returns only the `Failure`.
- `Settings.Get`, `Save`, `HasChanged` and `KeepChanged` pass straight through to the store, so they are covered by the `Configuration` members. `ContainsValue` and `KeyForValue` are one-line dictionary queries and are left out.
- Converters.ConvertTo: the KeyCode converter accepts only the enum's names. `Enum.Parse` also accepts numeric text, comma-separated names and surrounding white space, which the model does not.
- Decimal.Parse: follows `Int32.Parse` with the invariant culture only. Culture-specific signs are not modelled.
- BInput.IsValidKey: compares prefixes by ordinal. `String.StartsWith(string)` compares by culture, which agrees for the ASCII names of the key codes.
- Configuration.Set: a null string value is not modelled; values are never null.
- Settings.Initialize: when the store already has a callback, whether that callback is `SyncValue` is the parameter `ownSync`. Delegate identity is not modelled. A callback other than `SyncValue` is assumed to change nothing the model tracks, so `Settings.Deliver` treats its calls as no-ops.
- Components and groups are identified by number. A destroyed component that is still referenced ("fake null" in Unity) is not distinguished from a live one.
- The `Resolution` value carries only width and height; its refresh rate is not modelled.
- Settings.Revert: delivery of the restored values to the bindings is stated per key (`RevertKeySyncs`) and as a frame, not for the whole loop, where a later key's bindings may write the same member as an earlier key's.
- Converters.ResolveType: which other type names resolve is the parameter `others`, not the real set of loaded assemblies. A binding of such a type (float, `Color`) is skipped by `SyncValue`, because their converters are not modelled, where the C# writes the float or colour. Each type has one stored name (`QualifiedName`, a stand-in for the assembly-qualified name); `Type.GetType` accepting other spellings of the same type is not modelled.
- Reflection is modelled as exact type matches: assigning a value of a derived or convertible type is not modelled.

=== FILE: binding.dfy ===
/** A Binding links a setting to one public member of a live component. The
    reflection the code uses (GetField, GetProperty, SetValue) is replaced by
    an explicit table of each component's fields and properties. */
module Bindings {

  import opened Wrappers
  import opened Types
  import opened Exceptions
  import Converters

  /** A reference to a live component. */
  type ComponentId = nat

  /** A public field or property: its declared type and current value. */
  datatype Slot = Slot(tag: TypeTag, value: Value)

  /** What reflection sees of a component: public fields and properties by
      name, the properties that have no setter, and whether the component
      implements IBindingRefreshable. */
  datatype Target = Target(
    fields: map<string, Slot>,
    properties: map<string, Slot>,
    readOnly: set<string>,
    refreshable: bool)

  /** The live components; a reference that is not in the map is null. */
  type World = map<ComponentId, Target>

  /** `typeName` is the serialised type name, `bindingType` the type resolved
      from it (null until resolved). */
  datatype Binding = Binding(
    source: string,
    typeName: string,
    component: ComponentId,
    field: string,
    bindingType: Option<TypeTag>)

  /** Everything about a component that writing a member value cannot change. */
  datatype Shape = Shape(
    fieldTags: map<string, TypeTag>,
    propertyTags: map<string, TypeTag>,
    readOnly: set<string>,
    refreshable: bool)

  function ShapeOf(t: Target): Shape {
    Shape(
      map f | f in t.fields :: t.fields[f].tag,
      map p | p in t.properties :: t.properties[p].tag,
      t.readOnly,
      t.refreshable)
  }

  /** The same components, each with the same members of the same types. */
  ghost predicate SameShape(w: World, w': World) {
    w.Keys == w'.Keys && forall c :: c in w ==> ShapeOf(w[c]) == ShapeOf(w'[c])
  }

  /** The member a name selects: the field if there is one, else the property. */
  function MemberOf(t: Target, name: string): Option<Slot> {
    if name in t.fields then Some(t.fields[name])
    else if name in t.properties then Some(t.properties[name])
    else None
  }

  /** Writing `v` to the member `name` of `t` succeeds: the member has the
      value's type, and, if it is a property, a setter. */
  predicate Accepts(t: Target, name: string, v: Value) {
    if name in t.fields then t.fields[name].tag == TagOf(v)
    else if name in t.properties then name !in t.readOnly && t.properties[name].tag == TagOf(v)
    else true
  }

  /** The member `name` of component `c` holds `v`. */
  predicate Holds(w: World, c: ComponentId, name: string, v: Value) {
    c in w && MemberOf(w[c], name).Some? && MemberOf(w[c], name).value.value == v
  }

  /** `t'` is `t` with at most the member that `name` selects changed. */
  ghost predicate OnlyMemberChanged(t: Target, t': Target, name: string) {
    && ShapeOf(t') == ShapeOf(t)
    && t'.fields.Keys == t.fields.Keys
    && t'.properties.Keys == t.properties.Keys
    && (forall f :: f in t.fields && f != name ==> t'.fields[f] == t.fields[f])
    && (forall p :: p in t.properties && (p != name || name in t.fields) ==> t'.properties[p] == t.properties[p])
  }

  /** Binding.SetValue: null is ignored; otherwise the component's field of
      that name is written if it has one, else its property of that name, else
      nothing. A null component, a value of the wrong type, or a property
      without a setter throws. */
  function SetValue(w: World, b: Binding, v: Option<Value>): (r: Result<World, Exn>)
    ensures v.None? ==> r == Success(w)
    ensures v.Some? && b.component !in w ==> r == Failure(NullReference)
    ensures v.Some? && b.component in w ==> (r.Success? <==> Accepts(w[b.component], b.field, v.value))
    ensures r.Failure? ==> r.error == NullReference || r.error == Argument
    ensures r.Success? ==> SameShape(w, r.value)
    ensures r.Success? ==> forall c :: c in w && c != b.component ==> r.value[c] == w[c]
    ensures r.Success? && b.component in w ==> OnlyMemberChanged(w[b.component], r.value[b.component], b.field)
    ensures r.Success? && v.Some? && b.component in w && MemberOf(w[b.component], b.field).Some? ==>
      Holds(r.value, b.component, b.field, v.value)
    ensures r.Success? && v.Some? && b.component in w && MemberOf(w[b.component], b.field).None? ==>
      r.value == w
  {
    if v.None? then Success(w)
    else if b.component !in w then Failure(NullReference)
    else
      var t := w[b.component];
      if b.field in t.fields then
        if t.fields[b.field].tag == TagOf(v.value) then
          var t' := t.(fields := t.fields[b.field := Slot(t.fields[b.field].tag, v.value)]);
          assert ShapeOf(t') == ShapeOf(t);
          Success(w[b.component := t'])
        else
          Failure(Argument)
      else if b.field in t.properties then
        if b.field !in t.readOnly && t.properties[b.field].tag == TagOf(v.value) then
          var t' := t.(properties := t.properties[b.field := Slot(t.properties[b.field].tag, v.value)]);
          assert ShapeOf(t') == ShapeOf(t);
          Success(w[b.component := t'])
        else
          Failure(Argument)
      else
        Success(w)
  }

  /** A write through one binding leaves every other member's value alone. */
  lemma SetValueKeepsOthers(w: World, b: Binding, v: Option<Value>, c: ComponentId, name: string, x: Value)
    requires Holds(w, c, name, x) && (c != b.component || name != b.field)
    requires SetValue(w, b, v).Success?
    ensures Holds(SetValue(w, b, v).value, c, name, x)
  {
  }

  /** Whether writing through `b` succeeds depends only on the shape of the world. */
  lemma AcceptsDependsOnShape(w: World, w': World, c: ComponentId, name: string, v: Value)
    requires SameShape(w, w') && c in w
    ensures Accepts(w[c], name, v) <==> Accepts(w'[c], name, v)
    ensures MemberOf(w[c], name).Some? <==> MemberOf(w'[c], name).Some?
  {
    assert ShapeOf(w[c]) == ShapeOf(w'[c]);
    var s, s' := ShapeOf(w[c]), ShapeOf(w'[c]);
    assert name in w[c].fields <==> name in s.fieldTags;
    assert name in w'[c].fields <==> name in s'.fieldTags;
    assert name in w[c].properties <==> name in s.propertyTags;
    assert name in w'[c].properties <==> name in s'.propertyTags;
    if name in w[c].fields {
      assert w[c].fields[name].tag == s.fieldTags[name] == s'.fieldTags[name] == w'[c].fields[name].tag;
    } else if name in w[c].properties {
      assert w[c].properties[name].tag == s.propertyTags[name] == s'.propertyTags[name] == w'[c].properties[name].tag;
    }
  }

  /** The BindingType setter: stores the type and its name together. */
  function SetBindingType(b: Binding, t: TypeTag): (r: Binding)
    ensures r.bindingType == Some(t)
    ensures r.typeName == Converters.QualifiedName(t)
    ensures r.source == b.source && r.component == b.component && r.field == b.field
  {
    b.(bindingType := Some(t), typeName := Converters.QualifiedName(t))
  }

  /** OnAfterDeserialize: re-derives the type from the serialised name, given
      the names `others` of the other loaded types. */
  function OnAfterDeserialize(others: set<string>, b: Binding): (r: Binding)
    ensures r.bindingType.Some? ==> Converters.QualifiedName(r.bindingType.value) == b.typeName
    ensures r.bindingType.None? <==> !Converters.ModelledName(b.typeName) && b.typeName !in others
    ensures r.typeName == b.typeName && r.source == b.source && r.component == b.component && r.field == b.field
  {
    b.(bindingType := Converters.ResolveType(others, b.typeName))
  }

  /** A binding whose type was set through BindingType survives serialisation
      unchanged, for a type the process has loaded: the name it stored
      resolves to the same type. */
  lemma TypeSurvivesSerialisation(others: set<string>, b: Binding, t: TypeTag)
    requires Converters.Loadable(others, t)
    ensures OnAfterDeserialize(others, SetBindingType(b, t)) == SetBindingType(b, t)
  {
    Converters.ResolveQualified(others, t);
  }
}

=== FILE: bindingset.dfy ===
/** BindingSet: a group of bindings activated together, and the process-wide
    list `allReferenced` of the groups that have woken up. */
module BindingSets {

  import opened Wrappers
  import opened Lists
  import Bindings

  /** `id` stands for the object's identity: two groups are the same object
      exactly when they are equal. */
  datatype BindingSet = BindingSet(id: nat, bindings: seq<Bindings.Binding>)

  /** The registration half of Awake: the list is created when null and the
      group appended at the end unless it is already there. */
  function Register(all: Option<seq<BindingSet>>, s: BindingSet): (r: seq<BindingSet>)
    ensures s in r
    ensures all.None? ==> r == [s]
    ensures all.Some? && s in all.value ==> r == all.value
    ensures all.Some? && s !in all.value ==> r == all.value + [s]
    ensures all.Some? && NoDup(all.value) ==> NoDup(r)
  {
    if all.None? then [s]
    else if s in all.value then all.value
    else
      NoDupAppendIf(all.value, s);
      all.value + [s]
  }

  lemma NoDupAppendIf(xs: seq<BindingSet>, s: BindingSet)
    requires s !in xs
    ensures NoDup(xs) ==> NoDup(xs + [s])
  {
    if NoDup(xs) {
      NoDupAppend(xs, s);
    }
  }

  /** Registering a group that is already registered changes nothing, so the
      list never holds a group twice. */
  lemma RegisterIdempotent(all: Option<seq<BindingSet>>, s: BindingSet)
    ensures Register(Some(Register(all, s)), s) == Register(all, s)
  {
  }
}

=== FILE: binput.dfy ===
/** BInput: action-to-key mappings kept in their own change-tracked store, the
    fallback for unmapped actions, and the filter that picks the key codes a
    player may bind. */
module BInput {

  import opened Wrappers
  import opened Types
  import opened Exceptions
  import Converters
  import Configuration
  import LineFormat

  /** The name prefixes of the key codes that cannot be bound, by default. */
  const DefaultInvalid: seq<string> := ["Mouse", "Joystick", "F"]

  /** The name of KeyCode.None. */
  const NoKey: string := "None"

  /** Initialize: a store with the default converters and the KeyCode
      converter (over the enum's `names`), reading `lines` as its file. */
  function Boot(names: set<string>, lines: seq<string>): (r: Result<Configuration.Store, Exn>)
    ensures r.Success? <==> LineFormat.ParseSettings(lines).Success?
    ensures r.Success? ==> r.value.settings == LineFormat.ParseSettings(lines).value && r.value.changed == map[]
    ensures r.Success? ==> r.value.converters.Keys == {IntTag, BoolTag, TextTag, KeyCodeTag}
    ensures r.Success? ==> KeyCodeTag in r.value.converters && r.value.converters[KeyCodeTag] == Converters.KeyCodeConverter(names)
    ensures r.Success? ==> r.value.loaded && Converters.Keyed(r.value.converters) && !r.value.observed
  {
    var st := Configuration.AddConverter(Configuration.Create(), Converters.KeyCodeConverter(names)).0;
    Configuration.Load(st, lines)
  }

  /** SetValue(action, key): a key equal to the current one first forgets the
      action's undo value; then the string is written through the store's
      Set. A missing action has a null current value, on which Equals throws,
      and so does every read of a store that is not loaded. */
  function SetValue(st: Configuration.Store, action: string, key: string): (r: Result<Configuration.Step, Exn>)
    ensures !st.loaded || action !in st.settings <==> r == Failure(NullReference)
    ensures st.loaded && action in st.settings && st.settings[action] == key ==>
      r == Success(Configuration.Step(Configuration.KeepChanged(st, action).value, []))
    ensures st.loaded && action in st.settings && st.settings[action] != key ==>
      r == Configuration.Set(st, action, TextV(key))
  {
    match Configuration.Get(st, TextTag, action)
    case Failure(e) => Failure(e)
    case Success(current) =>
      if current.None? then Failure(NullReference)
      else
        var st1 := if current.value == TextV(key) then Configuration.KeepChanged(st, action).value else st;
        Configuration.Set(st1, action, TextV(key))
  }

  /** Over a store that tracks its baseline, SetValue keeps tracking it, with
      the action's current key becoming its baseline when it is written again. */
  lemma SetValueRebases(st: Configuration.Store, base: map<string, string>, action: string, key: string)
    requires Configuration.Tracks(st, base) && action in st.settings
    ensures SetValue(st, action, key).Success?
    ensures st.settings[action] == key ==>
      Configuration.Tracks(SetValue(st, action, key).value.store, base[action := key])
    ensures st.settings[action] != key ==>
      Configuration.Tracks(SetValue(st, action, key).value.store, base)
  {
    if st.settings[action] == key {
      Configuration.KeepChangedRebases(st, base, action);
    } else {
      Configuration.SetValueTracks(st, base, action, key);
    }
  }

  /** GetKeyCode(action): an unmapped action gives KeyCode.None; a mapped one
      is parsed by the KeyCode converter, and a name the enum does not define
      (an ArgumentException) is overwritten with "None", which is returned.
      Any other failure propagates; before Initialize the lookup of the action
      throws. */
  function GetKeyCode(st: Configuration.Store, action: string): (r: Result<(Configuration.Store, string), Exn>)
    ensures !st.loaded ==> r == Failure(NullReference)
    ensures st.loaded && action !in st.settings ==> r == Success((st, NoKey))
    ensures r.Success? && r.value.1 != NoKey ==> r.value.0 == st
    ensures r.Success? && action in st.settings &&
            KeyCodeTag in st.converters && st.converters[KeyCodeTag].KeyCodeConverter? &&
            st.settings[action] in st.converters[KeyCodeTag].names ==>
      r.value == (st, st.settings[action])
    ensures st.loaded && KeyCodeTag !in st.converters && action in st.settings ==> r == Failure(ConverterMissing(KeyCodeTag))
  {
    if !st.loaded then Failure(NullReference)
    else if action !in st.settings then Success((st, NoKey))
    else
      match Configuration.Get(st, KeyCodeTag, action)
      case Success(v) =>
        if v.Some? && v.value.KeyV? then Success((st, v.value.name)) else Failure(InvalidCast)
      case Failure(e) =>
        if !IsArgumentException(e) then Failure(e)
        else
          match Configuration.Set(st, action, KeyV(NoKey))
          case Failure(e') => Failure(e')
          case Success(step) => Success((step.store, NoKey))
  }

  /** An action mapped to a name the enum does not define is reset: GetKeyCode
      writes "None" to it, which marks it changed when it was not, and returns
      KeyCode.None. */
  lemma UnmappedActionResets(st: Configuration.Store, base: map<string, string>, action: string, names: set<string>)
    requires Configuration.Tracks(st, base) && Converters.Keyed(st.converters)
    requires KeyCodeTag in st.converters && st.converters[KeyCodeTag] == Converters.KeyCodeConverter(names)
    requires action in st.settings && st.settings[action] !in names
    ensures GetKeyCode(st, action).Success?
    ensures GetKeyCode(st, action).value.1 == NoKey
    ensures GetKeyCode(st, action).value.0.settings == st.settings[action := NoKey]
    ensures Configuration.Tracks(GetKeyCode(st, action).value.0, base)
    ensures base[action] != NoKey ==> Configuration.Dirty(GetKeyCode(st, action).value.0)
  {
    Configuration.SetValueTracks(st, base, action, NoKey);
    var r := GetKeyCode(st, action).value.0;
    if base[action] != NoKey {
      assert action in r.changed;
    }
  }

  /** String.StartsWith, by ordinal comparison. */
  predicate StartsWith(s: string, prefix: string) {
    |prefix| <= |s| && s[..|prefix|] == prefix
  }

  /** A key code may be bound when its name starts with none of the prefixes. */
  predicate IsValidKey(name: string, invalid: seq<string>) {
    !exists j :: 0 <= j < |invalid| && StartsWith(name, invalid[j])
  }

  /** The valid names of `all`, in order. */
  function ValidKeys(all: seq<string>, invalid: seq<string>): (r: seq<string>)
    ensures |r| <= |all|
    ensures forall x :: x in r ==> x in all && IsValidKey(x, invalid)
  {
    if |all| == 0 then []
    else
      var last := all[|all| - 1];
      ValidKeys(all[..|all| - 1], invalid) + (if IsValidKey(last, invalid) then [last] else [])
  }

  /** ValidKeys drops exactly the invalid names. */
  lemma {:induction false} ValidKeysComplete(all: seq<string>, invalid: seq<string>, x: string)
    requires x in all && IsValidKey(x, invalid)
    ensures x in ValidKeys(all, invalid)
    decreases |all|
  {
    if all[|all| - 1] != x {
      assert x in all[..|all| - 1] by {
        var i :| 0 <= i < |all| && all[i] == x;
        assert all[..|all| - 1][i] == x;
      }
      ValidKeysComplete(all[..|all| - 1], invalid, x);
    }
  }

  /** The Where(...) filter over the enum's names, in the enum's order. */
  method ValidKeyCodes(all: seq<string>, invalid: seq<string>) returns (r: seq<string>)
    ensures r == ValidKeys(all, invalid)
    ensures forall x :: x in r <==> x in all && IsValidKey(x, invalid)
  {
    r := [];
    var i := 0;
    while i < |all|
      invariant 0 <= i <= |all|
      invariant r == ValidKeys(all[..i], invalid)
    {
      assert all[..i + 1][..i] == all[..i];
      if IsValidKey(all[i], invalid) {
        r := r + [all[i]];
      }
      i := i + 1;
    }
    assert all[..|all|] == all;
    forall x | x in all && IsValidKey(x, invalid) ensures x in r {
      ValidKeysComplete(all, invalid, x);
    }
  }

  /** The default prefixes shut out the mouse buttons, the joystick buttons and
      the function keys, and with them the letter key F; other letters pass. */
  lemma DefaultFilter()
    ensures !IsValidKey("Mouse0", DefaultInvalid)
    ensures !IsValidKey("JoystickButton0", DefaultInvalid)
    ensures !IsValidKey("F1", DefaultInvalid)
    ensures !IsValidKey("F", DefaultInvalid)
    ensures IsValidKey("A", DefaultInvalid)
    ensures IsValidKey("Space", DefaultInvalid)
  {
    assert StartsWith("Mouse0", DefaultInvalid[0]);
    assert StartsWith("JoystickButton0", DefaultInvalid[1]);
    assert StartsWith("F1", DefaultInvalid[2]);
    assert StartsWith("F", DefaultInvalid[2]);
    assert "A"[..1][0] != "F"[0];
    assert !StartsWith("A", DefaultInvalid[2]);
    assert "Space"[..1][0] != "F"[0] && "Space"[..5][0] != "Mouse"[0];
    assert !StartsWith("Space", DefaultInvalid[0]) && !StartsWith("Space", DefaultInvalid[2]);
  }
}

=== FILE: configuration.dfy ===
/** The change-tracked settings store (the Configuration class): committed
    settings, the undo value of every changed key, a converter registry, and
    the OnChange callback, whose calls an operation returns as notices. */
module Configuration {

  import opened Wrappers
  import opened Types
  import opened Exceptions
  import opened Lists
  import Converters
  import LineFormat

  /** One call of the OnChange callback: onChange(key, value). */
  datatype Notice = Notice(key: string, value: string)

  /** `loaded` tells whether Initialize has created the two dictionaries
      (they are null before it, and every operation that reads them throws);
      `observed` tells whether an OnChange callback is installed. */
  datatype Store = Store(
    loaded: bool,
    settings: map<string, string>,
    changed: map<string, string>,
    converters: Converters.Registry,
    observed: bool)

  /** A store after an operation, with the callback calls it made, in order. */
  datatype Step = Step(store: Store, notices: seq<Notice>)

  /** The dictionaries exist, and every changed key is a setting whose value
      differs from its undo value. */
  ghost predicate Consistent(st: Store) {
    && st.loaded
    && forall k :: k in st.changed ==> k in st.settings && st.settings[k] != st.changed[k]
  }

  /** The store tracks the baseline `base` (the settings as last loaded or
      saved): a key is changed exactly when its value differs from the
      baseline, and its undo value is the baseline value. */
  ghost predicate Tracks(st: Store, base: map<string, string>) {
    && st.loaded
    && st.settings.Keys == base.Keys
    && st.changed.Keys <= st.settings.Keys
    && (forall k :: k in st.changed ==> st.changed[k] == base[k])
    && (forall k :: k in st.settings ==> (k in st.changed <==> st.settings[k] != base[k]))
  }

  lemma TracksConsistent(st: Store, base: map<string, string>)
    requires Tracks(st, base)
    ensures Consistent(st)
  {
  }

  /** The constructor: the default converters and no callback; the
      dictionaries stay null until Initialize. */
  function Create(): (st: Store)
    ensures !st.loaded && !st.observed
    ensures Converters.Keyed(st.converters)
    ensures st.converters.Keys == {IntTag, BoolTag, TextTag}
  {
    Store(false, map[], map[], Converters.DefaultRegistry(), false)
  }

  /** Initialize() once the file is in place: creates the dictionaries, and
      ReadSettings fills the settings with the file's, nothing changed. */
  function Load(st: Store, lines: seq<string>): (r: Result<Store, Exn>)
    ensures r.Success? <==> LineFormat.ParseSettings(lines).Success?
    ensures r.Success? ==> r.value.settings == LineFormat.ParseSettings(lines).value
    ensures r.Success? ==> Tracks(r.value, r.value.settings) && !Dirty(r.value)
    ensures r.Success? ==> r.value.converters == st.converters && r.value.observed == st.observed
  {
    match LineFormat.ParseSettings(lines)
    case Success(m) => Success(st.(loaded := true, settings := m, changed := map[]))
    case Failure(e) => Failure(e)
  }

  /** Reset(): LoadDefault copies the default file over the persisted one, so
      `lines` are the defaults; then ReadSettings, which first clears both
      dictionaries and so throws before Initialize. */
  function Reset(st: Store, lines: seq<string>): (r: Result<Store, Exn>)
    ensures !st.loaded ==> r == Failure(NullReference)
    ensures r.Success? <==> st.loaded && LineFormat.ParseSettings(lines).Success?
    ensures r.Success? ==> r.value.settings == LineFormat.ParseSettings(lines).value
    ensures r.Success? ==> Tracks(r.value, r.value.settings) && !Dirty(r.value)
    ensures r.Success? ==> r.value.converters == st.converters && r.value.observed == st.observed
  {
    if !st.loaded then Failure(NullReference) else Load(st, lines)
  }

  /** The callback calls an effective write of `value` to `key` makes. */
  function Notify(st: Store, key: string, value: string): seq<Notice> {
    if st.observed then [Notice(key, value)] else []
  }

  /** SetValue: writes `value` to an existing key. A missing key or an unchanged
      value is a no-op. Otherwise the key's undo value is captured on its first
      change and kept afterwards, writing the undo value back cancels the
      change, and the callback fires. */
  function SetValue(st: Store, key: string, value: string): (r: Result<Step, Exn>)
    ensures r.Success? <==> st.loaded
    ensures r.Failure? ==> r.error == NullReference
    ensures st.loaded && (key !in st.settings || st.settings[key] == value) ==> r == Success(Step(st, []))
    ensures st.loaded && key in st.settings && st.settings[key] != value ==>
      && r.value.store.settings == st.settings[key := value]
      && r.value.notices == Notify(st, key, value)
      && (key !in st.changed ==> key in r.value.store.changed && r.value.store.changed[key] == st.settings[key])
      && (key in st.changed ==> (key in r.value.store.changed <==> st.changed[key] != value))
      && (key in st.changed && key in r.value.store.changed ==> r.value.store.changed[key] == st.changed[key])
    ensures r.Success? ==> forall k :: k != key ==> (k in r.value.store.changed <==> k in st.changed)
    ensures r.Success? ==> forall k :: k != key && k in st.changed ==> r.value.store.changed[k] == st.changed[k]
    ensures r.Success? ==> r.value.store.loaded && r.value.store.converters == st.converters && r.value.store.observed == st.observed
  {
    if !st.loaded then Failure(NullReference)
    else if key in st.settings && st.settings[key] != value then
      var changed :=
        if key in st.changed then
          (if st.changed[key] == value then st.changed - {key} else st.changed)
        else st.changed[key := st.settings[key]];
      Success(Step(st.(settings := st.settings[key := value], changed := changed), Notify(st, key, value)))
    else
      Success(Step(st, []))
  }

  /** The callback calls Revert() makes: one per changed key, in order. */
  function Announce(changed: map<string, string>, order: seq<string>): (r: seq<Notice>)
    requires forall i :: 0 <= i < |order| ==> order[i] in changed
    ensures |r| == |order|
    ensures forall i :: 0 <= i < |order| ==> r[i] == Notice(order[i], changed[order[i]])
  {
    if |order| == 0 then [] else [Notice(order[0], changed[order[0]])] + Announce(changed, order[1..])
  }

  /** Revert(): every changed key gets its undo value back (with a callback
      call each, in the enumeration order of the changed keys) and nothing is
      changed afterwards. */
  function Revert(st: Store, order: seq<string>): (r: Result<Step, Exn>)
    requires Enumerates(order, st.changed.Keys)
    ensures r.Success? <==> st.loaded
    ensures r.Failure? ==> r.error == NullReference
    ensures r.Success? ==> r.value.store.changed == map[]
    ensures r.Success? ==> forall k :: k in st.changed ==> k in r.value.store.settings && r.value.store.settings[k] == st.changed[k]
    ensures r.Success? ==> forall k :: k in st.settings && k !in st.changed ==> k in r.value.store.settings && r.value.store.settings[k] == st.settings[k]
    ensures r.Success? && st.changed.Keys <= st.settings.Keys ==> r.value.store.settings.Keys == st.settings.Keys
    ensures r.Success? && st.observed ==> |r.value.notices| == |order|
    ensures r.Success? && st.observed ==> forall i :: 0 <= i < |order| ==> r.value.notices[i] == Notice(order[i], st.changed[order[i]])
    ensures r.Success? && !st.observed ==> r.value.notices == []
    ensures r.Success? ==> r.value.store.loaded && r.value.store.converters == st.converters && r.value.store.observed == st.observed
  {
    if !st.loaded then Failure(NullReference)
    else
      var notices := if st.observed then Announce(st.changed, order) else [];
      Success(Step(st.(settings := st.settings + st.changed, changed := map[]), notices))
  }

  /** Revert(key): a changed key is written back to its undo value through
      SetValue, which, for a consistent store, also forgets the change. */
  function RevertKey(st: Store, key: string): (r: Result<Step, Exn>)
    ensures r.Success? <==> st.loaded
    ensures r.Failure? ==> r.error == NullReference
    ensures st.loaded && key !in st.changed ==> r == Success(Step(st, []))
    ensures Consistent(st) && key in st.changed ==>
      && r.value.store.settings == st.settings[key := st.changed[key]]
      && r.value.store.changed == st.changed - {key}
      && r.value.notices == Notify(st, key, st.changed[key])
  {
    if !st.loaded then Failure(NullReference)
    else if key in st.changed then
      var r := SetValue(st, key, st.changed[key]);
      assert Consistent(st) ==> r.value.store.changed == st.changed - {key};
      r
    else
      Success(Step(st, []))
  }

  /** KeepChanged(key): forgets the key's undo value, leaving its value. */
  function KeepChanged(st: Store, key: string): (r: Result<Store, Exn>)
    ensures r.Success? <==> st.loaded
    ensures r.Failure? ==> r.error == NullReference
    ensures r.Success? ==> r.value.settings == st.settings && key !in r.value.changed
    ensures r.Success? ==> forall k :: k != key ==> (k in r.value.changed <==> k in st.changed)
    ensures r.Success? ==> forall k :: k != key && k in st.changed ==> r.value.changed[k] == st.changed[k]
    ensures r.Success? ==> r.value.loaded && r.value.converters == st.converters && r.value.observed == st.observed
  {
    if !st.loaded then Failure(NullReference) else Success(st.(changed := st.changed - {key}))
  }

  /** Clear(key): sets an existing key to the empty string, bypassing the
      change bookkeeping and the callback. */
  function Clear(st: Store, key: string): (r: Result<Store, Exn>)
    ensures r.Success? <==> st.loaded
    ensures r.Failure? ==> r.error == NullReference
    ensures r.Success? && key in st.settings ==> r.value.settings == st.settings[key := ""]
    ensures r.Success? && key !in st.settings ==> r.value.settings == st.settings
    ensures r.Success? ==> r.value.changed == st.changed
    ensures r.Success? ==> r.value.loaded && r.value.converters == st.converters && r.value.observed == st.observed
  {
    if !st.loaded then Failure(NullReference)
    else if key in st.settings then Success(st.(settings := st.settings[key := ""]))
    else Success(st)
  }

  /** Some key is changed: what HasChanged() reports once the store is loaded. */
  predicate Dirty(st: Store) {
    |st.changed| > 0
  }

  /** HasChanged(). */
  function HasChanged(st: Store): (r: Result<bool, Exn>)
    ensures r.Success? <==> st.loaded
    ensures r.Failure? ==> r.error == NullReference
    ensures r.Success? ==> (r.value <==> exists k :: k in st.changed)
  {
    if !st.loaded then Failure(NullReference)
    else
      assert Dirty(st) ==> exists k :: k in st.changed by {
        if Dirty(st) {
          var k :| k in st.changed;
        }
      }
      Success(Dirty(st))
  }

  /** HasChanged(key). */
  function HasChangedKey(st: Store, key: string): (r: Result<bool, Exn>)
    ensures r.Success? <==> st.loaded
    ensures r.Failure? ==> r.error == NullReference
    ensures r.Success? ==> (r.value <==> key in st.changed)
  {
    if !st.loaded then Failure(NullReference) else Success(key in st.changed)
  }

  /** Save(): writes the settings (in enumeration order) and forgets every
      change, but only when something has changed; otherwise nothing is
      written. The written file, if any, is returned. */
  function Save(st: Store, order: seq<string>): (r: Result<(Store, Option<seq<string>>), Exn>)
    requires Enumerates(order, st.settings.Keys)
    ensures r.Success? <==> st.loaded
    ensures r.Failure? ==> r.error == NullReference
    ensures r.Success? && Dirty(st) ==> r.value.1 == Some(LineFormat.FormatSettings(st.settings, order))
    ensures r.Success? && !Dirty(st) ==> r.value.1 == None && r.value.0 == st
    ensures r.Success? ==> r.value.0.settings == st.settings && r.value.0.changed == map[]
    ensures r.Success? ==> r.value.0.loaded && r.value.0.converters == st.converters && r.value.0.observed == st.observed
  {
    if !st.loaded then Failure(NullReference)
    else if Dirty(st) then
      Success((st.(changed := map[]), Some(LineFormat.FormatSettings(st.settings, order))))
    else
      assert st.changed == map[];
      Success((st, None))
  }

  /** AddConverter. */
  function AddConverter(st: Store, c: Converters.Converter): (r: (Store, bool))
    ensures r.0.converters == Converters.AddConverter(st.converters, c).0
    ensures r.1 == (Converters.Tag(c) in st.converters)
    ensures r.0.loaded == st.loaded && r.0.settings == st.settings && r.0.changed == st.changed && r.0.observed == st.observed
  {
    var (reg, warned) := Converters.AddConverter(st.converters, c);
    (st.(converters := reg), warned)
  }

  /** GetValue on a loaded store: the stored text, or null for a missing key. */
  function GetValue(st: Store, key: string): (r: Option<string>)
    ensures r.Some? <==> key in st.settings
    ensures r.Some? ==> r.value == st.settings[key]
  {
    if key in st.settings then Some(st.settings[key]) else None
  }

  /** Get<T>(key): strings bypass the registry (a missing key gives null);
      other types need a registered converter, which decodes the stored text.
      Reading the text throws before Initialize. */
  function Get(st: Store, tag: TypeTag, key: string): (r: Result<Option<Value>, Exn>)
    ensures tag != TextTag && tag !in st.converters ==> r == Failure(ConverterMissing(tag))
    ensures (tag == TextTag || tag in st.converters) && !st.loaded ==> r == Failure(NullReference)
    ensures tag == TextTag ==> (r.Success? <==> st.loaded)
    ensures tag == TextTag && r.Success? ==> (r.value.Some? <==> key in st.settings)
    ensures tag == TextTag && r.Success? && key in st.settings ==> r.value.value == TextV(st.settings[key])
    ensures tag != TextTag && tag in st.converters && st.loaded ==>
      (r.Success? <==> Converters.ConvertTo(st.converters[tag], GetValue(st, key)).Success?)
    ensures tag != TextTag && r.Success? ==>
      r.value == Some(Converters.ConvertTo(st.converters[tag], GetValue(st, key)).value)
  {
    if tag == TextTag then
      if !st.loaded then Failure(NullReference)
      else Success(if key in st.settings then Some(TextV(st.settings[key])) else None)
    else if tag !in st.converters then
      Failure(ConverterMissing(tag))
    else if !st.loaded then
      Failure(NullReference)
    else
      match Converters.ConvertTo(st.converters[tag], GetValue(st, key))
      case Success(v) => Success(Some(v))
      case Failure(e) => Failure(e)
  }

  /** Set<T>(key, value): strings are written as they are; other types are
      encoded by their registered converter, and a missing one throws. */
  function Set(st: Store, key: string, v: Value): (r: Result<Step, Exn>)
    ensures v.TextV? ==> r == SetValue(st, key, v.s)
    ensures !v.TextV? && TagOf(v) !in st.converters ==> r == Failure(ConverterMissing(TagOf(v)))
    ensures !v.TextV? && TagOf(v) in st.converters && Converters.Keyed(st.converters) ==>
      r == SetValue(st, key, Converters.ConvertFrom(st.converters[TagOf(v)], v).value)
  {
    if v.TextV? then SetValue(st, key, v.s)
    else if TagOf(v) !in st.converters then Failure(ConverterMissing(TagOf(v)))
    else
      match Converters.ConvertFrom(st.converters[TagOf(v)], v)
      case Success(text) => SetValue(st, key, text)
      case Failure(e) => Failure(e)
  }

  /** Before Initialize every operation that reads the dictionaries throws a
      NullReferenceException: Get, Set (once the value is encoded), Save(),
      Reset(), HasChanged, Revert(), Revert(key), KeepChanged and Clear. */
  lemma UnloadedThrows(st: Store, key: string, v: Value, order: seq<string>, lines: seq<string>)
    requires !st.loaded
    ensures Get(st, TextTag, key) == Failure(NullReference)
    ensures Set(st, key, v).Failure?
    ensures (v.TextV? || (TagOf(v) in st.converters && Converters.Keyed(st.converters))) ==>
      Set(st, key, v) == Failure(NullReference)
    ensures Enumerates(order, st.settings.Keys) ==> Save(st, order) == Failure(NullReference)
    ensures Reset(st, lines) == Failure(NullReference)
    ensures HasChanged(st) == Failure(NullReference) && HasChangedKey(st, key) == Failure(NullReference)
    ensures Enumerates(order, st.changed.Keys) ==> Revert(st, order) == Failure(NullReference)
    ensures RevertKey(st, key) == Failure(NullReference)
    ensures KeepChanged(st, key) == Failure(NullReference) && Clear(st, key) == Failure(NullReference)
  {
  }

  /** Whatever Set<T> writes to an existing key, Get<T> reads back, for every
      value the type's converter reproduces exactly. */
  lemma SetThenGet(st: Store, key: string, v: Value)
    requires st.loaded && key in st.settings && Converters.Keyed(st.converters)
    requires v.TextV? || (TagOf(v) in st.converters && Converters.Exact(st.converters[TagOf(v)], v))
    ensures Set(st, key, v).Success?
    ensures Get(Set(st, key, v).value.store, TagOf(v), key) == Success(Some(v))
  {
    if !v.TextV? {
      Converters.RoundTrip(st.converters[TagOf(v)], v);
    }
  }

  /** SetValue keeps the store tracking its baseline. */
  lemma SetValueTracks(st: Store, base: map<string, string>, key: string, value: string)
    requires Tracks(st, base)
    ensures Tracks(SetValue(st, key, value).value.store, base)
  {
  }

  /** Setting a key twice to the same value: the second call does nothing. */
  lemma SetValueTwice(st: Store, key: string, value: string)
    requires st.loaded
    ensures SetValue(SetValue(st, key, value).value.store, key, value) == Success(Step(SetValue(st, key, value).value.store, []))
  {
  }

  /** On a store tracking `base`, HasChanged() tells whether any setting
      differs from the baseline, and HasChanged(key) whether that one does. */
  lemma HasChangedMeansDiffers(st: Store, base: map<string, string>, key: string)
    requires Tracks(st, base)
    ensures HasChanged(st) == Success(st.settings != base)
    ensures HasChangedKey(st, key) == Success(key in base && st.settings[key] != base[key])
  {
    if Dirty(st) {
      var k :| k in st.changed;
      assert st.settings[k] != base[k];
    } else {
      assert forall k :: k in st.settings ==> st.settings[k] == base[k] by {
        forall k | k in st.settings ensures st.settings[k] == base[k] {
          assert k !in st.changed;
        }
      }
    }
  }

  /** Revert() returns a tracking store to its baseline with nothing changed. */
  lemma RevertRestoresBaseline(st: Store, base: map<string, string>, order: seq<string>)
    requires Tracks(st, base) && Enumerates(order, st.changed.Keys)
    ensures Revert(st, order).value.store.settings == base
    ensures Tracks(Revert(st, order).value.store, base)
  {
    var r := Revert(st, order).value.store;
    forall k | k in base ensures r.settings[k] == base[k] {
      if k !in st.changed {
        assert st.settings[k] == base[k];
      }
    }
  }

  /** Revert(key) returns a tracked key to its baseline value and keeps the
      store tracking its baseline; on an unchanged key it does nothing. */
  lemma RevertKeyRestoresBaseline(st: Store, base: map<string, string>, key: string)
    requires Tracks(st, base) && key in base
    ensures RevertKey(st, key).value.store.settings == st.settings[key := base[key]]
    ensures key !in RevertKey(st, key).value.store.changed
    ensures Tracks(RevertKey(st, key).value.store, base)
  {
    TracksConsistent(st, base);
    if key in st.changed {
      SetValueTracks(st, base, key, st.changed[key]);
    } else {
      assert st.settings[key] == base[key];
      assert st.settings[key := base[key]] == st.settings;
    }
  }

  /** Every changed key is a setting that differs from its undo value before
      and after SetValue, Revert(), Revert(key) and KeepChanged. */
  lemma ConsistencyPreserved(st: Store, key: string, value: string, order: seq<string>)
    requires Consistent(st)
    ensures Consistent(SetValue(st, key, value).value.store)
    ensures Enumerates(order, st.changed.Keys) ==> Consistent(Revert(st, order).value.store)
    ensures Consistent(RevertKey(st, key).value.store)
    ensures Consistent(KeepChanged(st, key).value)
  {
  }

  /** KeepChanged(key) makes the key's current value its new baseline. */
  lemma KeepChangedRebases(st: Store, base: map<string, string>, key: string)
    requires Tracks(st, base) && key in st.settings
    ensures Tracks(KeepChanged(st, key).value, base[key := st.settings[key]])
  {
  }

  /** Clear can break the invariant: clearing a key whose undo value is the
      empty string leaves it changed with value equal to its undo value, after
      which Revert(key) is a no-op and the key stays changed. */
  lemma ClearBreaksConsistency(st: Store, key: string)
    requires Consistent(st) && key in st.changed && st.changed[key] == ""
    ensures !Consistent(Clear(st, key).value)
    ensures RevertKey(Clear(st, key).value, key) == Success(Step(Clear(st, key).value, []))
    ensures key in RevertKey(Clear(st, key).value, key).value.store.changed
  {
  }

  /** Save() leaves a store tracking its (unchanged) settings as the new baseline. */
  lemma SaveRebases(st: Store, base: map<string, string>, order: seq<string>)
    requires Tracks(st, base) && Enumerates(order, st.settings.Keys)
    ensures Tracks(Save(st, order).value.0, st.settings)
  {
    if !Dirty(st) {
      assert st.changed == map[];
      forall k | k in st.settings ensures st.settings[k] == base[k] {
        assert k !in st.changed;
      }
    }
  }

  /** A sequence of SetValue calls, as a session of edits makes them. */
  function SetValues(st: Store, writes: seq<(string, string)>): (r: Store)
    requires st.loaded
    ensures r.loaded && r.settings.Keys == st.settings.Keys
    decreases |writes|
  {
    if |writes| == 0 then st
    else SetValues(SetValue(st, writes[0].0, writes[0].1).value.store, writes[1..])
  }

  /** After any session of edits from a freshly loaded or saved store, a key is
      changed exactly when its value differs from the one loaded, its undo value
      is the loaded one, and Revert() brings every loaded value back. */
  lemma {:induction false} SessionTracksBaseline(st: Store, base: map<string, string>, writes: seq<(string, string)>, order: seq<string>)
    requires Tracks(st, base)
    ensures Tracks(SetValues(st, writes), base)
    ensures Enumerates(order, SetValues(st, writes).changed.Keys) ==> Revert(SetValues(st, writes), order).value.store.settings == base
    decreases |writes|
  {
    if |writes| > 0 {
      SetValueTracks(st, base, writes[0].0, writes[0].1);
      SessionTracksBaseline(SetValue(st, writes[0].0, writes[0].1).value.store, base, writes[1..], order);
    }
    if Enumerates(order, SetValues(st, writes).changed.Keys) {
      RevertRestoresBaseline(SetValues(st, writes), base, order);
    }
  }

  /** Writing the settings and loading the written file gives back the same
      settings with nothing changed (for storable keys and values). */
  lemma SaveThenLoad(st: Store, order: seq<string>)
    requires st.loaded && Enumerates(order, st.settings.Keys) && Dirty(st)
    requires forall k :: k in st.settings ==> LineFormat.Storable(k) && LineFormat.Storable(st.settings[k])
    ensures Load(st, Save(st, order).value.1.value).Success?
    ensures Load(st, Save(st, order).value.1.value).value.settings == st.settings
    ensures Load(st, Save(st, order).value.1.value).value.changed == map[]
  {
    LineFormat.WriteReadRoundTrip(st.settings, order);
  }
}

=== FILE: converters.dfy ===
/** The converter contract (ConvertFrom / ConvertTo / GetConverterType), the
    converters the core ships with, and the registry keyed by type tag. */
module Converters {

  import opened Wrappers
  import opened Types
  import opened Exceptions
  import Text
  import Decimal

  /** One converter per value type. The KeyCode converter carries the names of
      the KeyCode enum, which is all Enum.Parse consults. */
  datatype Converter =
    | StringConverter
    | IntegerConverter
    | BooleanConverter
    | ResolutionConverter
    | KeyCodeConverter(names: set<string>)

  /** GetConverterType(). */
  function Tag(c: Converter): TypeTag {
    match c
    case StringConverter => TextTag
    case IntegerConverter => IntTag
    case BooleanConverter => BoolTag
    case ResolutionConverter => ResolutionTag
    case KeyCodeConverter(_) => KeyCodeTag
  }

  /** ConvertFrom(object): encodes a value as its persisted text. The cast to
      the converter's own type fails for a value of another type. */
  function ConvertFrom(c: Converter, v: Value): (r: Result<string, Exn>)
    ensures r.Failure? <==> TagOf(v) != Tag(c)
    ensures r.Failure? ==> r.error == InvalidCast
  {
    if TagOf(v) != Tag(c) then Failure(InvalidCast)
    else
      match v
      case TextV(s) => Success(Text.Trim(s))
      case IntV(i) => Success(Decimal.Render(i))
      case BoolV(b) => Success(if b then "1" else "0")
      case ResV(w, h) => Success(Decimal.Render(w) + "x" + Decimal.Render(h))
      case KeyV(name) => Success(name)
  }

  /** ConvertTo(string): decodes persisted text; `None` is a null string. */
  function ConvertTo(c: Converter, text: Option<string>): (r: Result<Value, Exn>)
    ensures r.Success? ==> TagOf(r.value) == Tag(c)
  {
    match c
    case StringConverter => DecodeText(text)
    case IntegerConverter => DecodeInteger(text)
    case BooleanConverter => DecodeBoolean(text)
    case ResolutionConverter =>
      if text.None? then Failure(NullReference) else DecodeResolution(text.value)
    case KeyCodeConverter(names) => DecodeKey(names, text)
  }

  /** StringConverter.DoConvertTo: trims; a null string throws. */
  function DecodeText(text: Option<string>): (r: Result<Value, Exn>)
    ensures r.Success? ==> r.value.TextV?
  {
    if text.None? then Failure(NullReference) else Success(TextV(Text.Trim(text.value)))
  }

  /** BooleanConverter.DoConvertTo: "1" is true, any other text false. */
  function DecodeBoolean(text: Option<string>): (r: Result<Value, Exn>)
    ensures r.Success? ==> r.value.BoolV?
  {
    if text.None? then Failure(NullReference) else Success(BoolV(text.value == "1"))
  }

  /** KeyCodeConverter.DoConvertTo: Enum.Parse over the enum's names. */
  function DecodeKey(names: set<string>, text: Option<string>): (r: Result<Value, Exn>)
    ensures r.Success? ==> r.value.KeyV?
  {
    if text.None? then Failure(ArgumentNull)
    else if text.value in names then Success(KeyV(text.value))
    else Failure(Argument)
  }

  /** IntegerConverter.DoConvertTo: Int32.Parse. */
  function DecodeInteger(text: Option<string>): (r: Result<Value, Exn>)
    ensures r.Success? ==> r.value.IntV?
  {
    match Decimal.Parse(text)
    case Success(i) => Success(IntV(i))
    case Failure(e) => Failure(e)
  }

  /** ResolutionConverter.DoConvertTo: split on 'x', parse the first piece as
      the width, then index the second piece and parse it as the height. */
  function DecodeResolution(s: string): (r: Result<Value, Exn>)
    ensures r.Success? ==> r.value.ResV?
  {
    var parts := Text.Split(s, 'x');
    match Decimal.Parse(Some(parts[0]))
    case Failure(e) => Failure(e)
    case Success(w) =>
      if |parts| < 2 then Failure(IndexOutOfRange)
      else
        (match Decimal.Parse(Some(parts[1]))
         case Failure(e) => Failure(e)
         case Success(h) => Success(ResV(w, h)))
  }

  /** The values a converter reproduces exactly: strings without surrounding
      white space and key names the enum defines; every int, bool and resolution. */
  predicate Exact(c: Converter, v: Value) {
    TagOf(v) == Tag(c)
    && (v.TextV? ==> Text.IsTrimmed(v.s))
    && (v.KeyV? ==> c.KeyCodeConverter? && v.name in c.names)
  }

  /** The round-trip law: decoding the encoding gives the value back. */
  lemma RoundTrip(c: Converter, v: Value)
    requires Exact(c, v)
    ensures ConvertFrom(c, v).Success?
    ensures ConvertTo(c, Some(ConvertFrom(c, v).value)) == Success(v)
  {
    match v
    case TextV(s) =>
      assert c == StringConverter;
      TextRoundTrip(s);
    case IntV(i) =>
      assert c == IntegerConverter;
      IntegerRoundTrip(i);
    case BoolV(b) =>
      assert c == BooleanConverter;
      BooleanCodec(b, "");
    case ResV(w, h) =>
      assert c == ResolutionConverter;
      ResolutionRoundTrip(w, h);
    case KeyV(_) =>
  }

  lemma TextRoundTrip(s: string)
    requires Text.IsTrimmed(s)
    ensures ConvertTo(StringConverter, Some(ConvertFrom(StringConverter, TextV(s)).value)) == Success(TextV(s))
  {
    assert Text.Trim(s) == s by {
      Text.TrimIdempotent(s);
    }
    assert ConvertFrom(StringConverter, TextV(s)) == Success(s);
    assert ConvertTo(StringConverter, Some(s)) == Success(TextV(s));
  }

  /** StringConverter trims in both directions, so its two halves agree and
      each is idempotent. */
  lemma StringTrims(s: string)
    ensures ConvertFrom(StringConverter, TextV(s)) == Success(Text.Trim(s))
    ensures ConvertTo(StringConverter, Some(s)) == Success(TextV(Text.Trim(s)))
    ensures ConvertTo(StringConverter, Some(Text.Trim(s))) == ConvertTo(StringConverter, Some(s))
    ensures ConvertFrom(StringConverter, TextV(Text.Trim(s))) == ConvertFrom(StringConverter, TextV(s))
  {
    Text.TrimIdempotent(s);
  }

  /** IntegerConverter: the decimal rendering of any int decodes to that int. */
  lemma IntegerRoundTrip(i: int32)
    ensures ConvertTo(IntegerConverter, Some(ConvertFrom(IntegerConverter, IntV(i)).value)) == Success(IntV(i))
  {
    Decimal.ParseRender(i);
  }

  /** IntegerConverter: decoding fails on text that is not an integer. */
  lemma IntegerRejects(s: string, c: char)
    requires c in s && !Decimal.IsDigit(c) && c != '-' && c != '+' && !Text.IsNumberWhite(c)
    ensures ConvertTo(IntegerConverter, Some(s)) == Failure(Format)
  {
    Decimal.ParseRejectsNonNumeric(s, c);
  }

  /** BooleanConverter: true is "1", false is "0"; decoding never fails on a
      string, yields true only for "1", and re-encoding normalises to "1"/"0". */
  lemma BooleanCodec(b: bool, s: string)
    ensures ConvertFrom(BooleanConverter, BoolV(b)) == Success(if b then "1" else "0")
    ensures ConvertTo(BooleanConverter, Some(ConvertFrom(BooleanConverter, BoolV(b)).value)) == Success(BoolV(b))
    ensures ConvertTo(BooleanConverter, Some(s)).Success?
    ensures ConvertTo(BooleanConverter, Some(s)).value.b <==> s == "1"
    ensures ConvertFrom(BooleanConverter, ConvertTo(BooleanConverter, Some(s)).value).value in {"1", "0"}
  {
  }

  /** ResolutionConverter: "{w}x{h}" decodes to (w, h). */
  lemma ResolutionRoundTrip(w: int32, h: int32)
    ensures ConvertFrom(ResolutionConverter, ResV(w, h)) == Success(Decimal.Render(w) + "x" + Decimal.Render(h))
    ensures DecodeResolution(Decimal.Render(w) + "x" + Decimal.Render(h)) == Success(ResV(w, h))
  {
    ResolutionEncode(w, h);
    var a, b := Decimal.Render(w), Decimal.Render(h);
    SplitPair(a, b);
    Decimal.ParseRender(w);
    Decimal.ParseRender(h);
    DecodePair(a, b, w, h);
  }

  lemma ResolutionEncode(w: int32, h: int32)
    ensures ConvertFrom(ResolutionConverter, ResV(w, h)) == Success(Decimal.Render(w) + "x" + Decimal.Render(h))
  {
  }

  lemma DecodePair(a: string, b: string, w: int32, h: int32)
    requires Text.Split(a + "x" + b, 'x') == [a, b]
    requires Decimal.Parse(Some(a)) == Success(w) && Decimal.Parse(Some(b)) == Success(h)
    ensures DecodeResolution(a + "x" + b) == Success(ResV(w, h))
  {
  }

  lemma SplitPair(a: string, b: string)
    requires 'x' !in a && 'x' !in b
    ensures Text.Split(a + "x" + b, 'x') == [a, b]
  {
    Text.SplitAtFirst(a, b, 'x');
    Text.SplitNoSeparator(b, 'x');
  }

  /** ResolutionConverter: pieces after the second 'x' are ignored. */
  lemma ResolutionIgnoresTail(a: string, b: string, rest: string)
    requires 'x' !in a && 'x' !in b
    ensures DecodeResolution(a + "x" + b + "x" + rest) == DecodeResolution(a + "x" + b)
  {
    var s := a + "x" + b + "x" + rest;
    assert s == a + ['x'] + (b + ['x'] + rest);
    Text.SplitAtFirst(a, b + ['x'] + rest, 'x');
    Text.SplitAtFirst(b, rest, 'x');
    SplitPair(a, b);
    DecodeFirstTwo(s, a + "x" + b);
  }

  /** The resolution decoder reads only the first two pieces. */
  lemma DecodeFirstTwo(s: string, t: string)
    requires |Text.Split(s, 'x')| >= 2 && |Text.Split(t, 'x')| >= 2
    requires Text.Split(s, 'x')[0] == Text.Split(t, 'x')[0] && Text.Split(s, 'x')[1] == Text.Split(t, 'x')[1]
    ensures DecodeResolution(s) == DecodeResolution(t)
  {
  }

  /** ResolutionConverter: text without an 'x' fails, either on its first
      piece or on the missing second one. */
  lemma ResolutionNeedsTwoParts(s: string)
    requires 'x' !in s
    ensures DecodeResolution(s).Failure?
    ensures Decimal.Parse(Some(s)).Success? ==> DecodeResolution(s) == Failure(IndexOutOfRange)
  {
    Text.SplitNoSeparator(s, 'x');
  }

  /** The converter registry: at most one converter per type tag. */
  type Registry = map<TypeTag, Converter>

  /** Every entry is filed under its own converter's type. */
  ghost predicate Keyed(reg: Registry) {
    forall t :: t in reg ==> Tag(reg[t]) == t
  }

  /** Configuration.AddConverter: files `c` under its type, overwriting an
      existing entry; the flag is the "Overriding existing converter" warning. */
  function AddConverter(reg: Registry, c: Converter): (r: (Registry, bool))
    ensures Tag(c) in r.0 && r.0[Tag(c)] == c
    ensures forall t :: t != Tag(c) ==> (t in r.0 <==> t in reg)
    ensures forall t :: t != Tag(c) && t in reg ==> r.0[t] == reg[t]
    ensures r.1 <==> Tag(c) in reg
    ensures Keyed(reg) ==> Keyed(r.0)
  {
    (reg[Tag(c) := c], Tag(c) in reg)
  }

  /** The converters the Configuration constructor registers (the float
      converter is not part of this model). */
  function DefaultRegistry(): (reg: Registry)
    ensures Keyed(reg)
    ensures reg.Keys == {IntTag, BoolTag, TextTag}
  {
    var r1 := AddConverter(map[], IntegerConverter).0;
    var r2 := AddConverter(r1, BooleanConverter).0;
    AddConverter(r2, StringConverter).0
  }

  /** The serialised type name a Binding stores: a fixed stand-in for the
      type's AssemblyQualifiedName, one spelling per type. */
  function QualifiedName(t: TypeTag): string {
    match t
    case IntTag => "System.Int32"
    case BoolTag => "System.Boolean"
    case TextTag => "System.String"
    case ResolutionTag => "UnityEngine.Resolution, UnityEngine"
    case KeyCodeTag => "UnityEngine.KeyCode, UnityEngine"
    case OtherTag(name) => name
  }

  /** The names of the five types this model has values for. */
  predicate ModelledName(name: string) {
    || name == QualifiedName(IntTag)
    || name == QualifiedName(BoolTag)
    || name == QualifiedName(TextTag)
    || name == QualifiedName(ResolutionTag)
    || name == QualifiedName(KeyCodeTag)
  }

  /** A type whose name Type.GetType can find, given the names `others` of the
      other types loaded in the process. */
  predicate Loadable(others: set<string>, t: TypeTag) {
    t.OtherTag? ==> t.name in others && !ModelledName(t.name)
  }

  /** Type.GetType(name): the type of that name, or null. Besides the five
      modelled types, the names in `others` resolve (the float and Color
      types, for instance). */
  function ResolveType(others: set<string>, name: string): (r: Option<TypeTag>)
    ensures r.Some? ==> QualifiedName(r.value) == name && Loadable(others, r.value)
    ensures r.None? <==> !ModelledName(name) && name !in others
  {
    if name == QualifiedName(IntTag) then Some(IntTag)
    else if name == QualifiedName(BoolTag) then Some(BoolTag)
    else if name == QualifiedName(TextTag) then Some(TextTag)
    else if name == QualifiedName(ResolutionTag) then Some(ResolutionTag)
    else if name == QualifiedName(KeyCodeTag) then Some(KeyCodeTag)
    else if name in others then Some(OtherTag(name))
    else None
  }

  /** Resolving a loadable type's own name finds that type. */
  lemma ResolveQualified(others: set<string>, t: TypeTag)
    requires Loadable(others, t)
    ensures ResolveType(others, QualifiedName(t)) == Some(t)
  {
  }
}

=== FILE: decimal.dfy ===
/** Int32.ToString() and Int32.Parse(string) in the invariant culture. */
module Decimal {

  import opened Wrappers
  import opened Types
  import opened Exceptions
  import Text

  predicate IsDigit(c: char) {
    '0' <= c <= '9'
  }

  predicate AllDigits(s: string) {
    forall i :: 0 <= i < |s| ==> IsDigit(s[i])
  }

  function DigitValue(c: char): (d: nat)
    requires IsDigit(c)
    ensures d < 10
  {
    c as int - '0' as int
  }

  function DigitChar(d: nat): (c: char)
    requires d < 10
    ensures IsDigit(c) && DigitValue(c) == d
  {
    (0x30 + d) as char
  }

  /** Decimal digits of `n`, most significant first, without leading zeros. */
  function NatToDigits(n: nat): (s: string)
    ensures |s| >= 1 && AllDigits(s)
    ensures s[0] == '0' ==> n == 0
  {
    if n < 10 then [DigitChar(n)] else NatToDigits(n / 10) + [DigitChar(n % 10)]
  }

  /** The number a string of decimal digits denotes. */
  function DigitsToNat(s: string): nat
    requires AllDigits(s)
  {
    if |s| == 0 then 0 else DigitsToNat(s[..|s| - 1]) * 10 + DigitValue(s[|s| - 1])
  }

  lemma {:induction false} DigitsRoundTrip(n: nat)
    ensures DigitsToNat(NatToDigits(n)) == n
  {
    if n >= 10 {
      var s := NatToDigits(n);
      assert s[..|s| - 1] == NatToDigits(n / 10);
      DigitsRoundTrip(n / 10);
    }
  }

  /** Int32.ToString(): an optional minus sign followed by the digits. */
  function Render(i: int): (s: string)
    ensures |s| >= 1 && IsDigit(s[|s| - 1])
    ensures IsDigit(s[0]) || s[0] == '-'
    ensures 'x' !in s && '=' !in s
  {
    var s := if i < 0 then "-" + NatToDigits(-i) else NatToDigits(i);
    assert forall k :: 0 <= k < |s| ==> IsDigit(s[k]) || s[k] == '-';
    s
  }

  /** Int32.Parse(string) with NumberStyles.Integer: optional white space, an
      optional sign, one or more digits, optional white space; null throws
      ArgumentNullException, bad syntax FormatException, a value outside the
      32-bit range OverflowException. */
  function Parse(text: Option<string>): Result<int32, Exn> {
    match text
    case None => Failure(ArgumentNull)
    case Some(s) => ParseTrimmed(Text.TrimBy(s, Text.IsNumberWhite))
  }

  /** Int32.Parse once the surrounding white space is gone. */
  function ParseTrimmed(t: string): Result<int32, Exn> {
    var signed := |t| > 0 && (t[0] == '-' || t[0] == '+');
    var digits := if signed then t[1..] else t;
    if |digits| == 0 || !AllDigits(digits) then Failure(Format)
    else
      var magnitude: int := DigitsToNat(digits);
      var n := if signed && t[0] == '-' then 0 - magnitude else magnitude;
      if MinInt32 <= n <= MaxInt32 then Success(n as int32) else Failure(Overflow)
  }

  lemma NoWhiteAtEnds(s: string)
    requires |s| >= 1 && !Text.IsNumberWhite(s[0]) && !Text.IsNumberWhite(s[|s| - 1])
    ensures Text.TrimBy(s, Text.IsNumberWhite) == s
  {
    Text.TrimPadded([], s, [], Text.IsNumberWhite);
    assert [] + s + [] == s;
  }

  /** Parsing the rendering of any 32-bit integer gives it back. */
  lemma ParseRender(i: int32)
    ensures Parse(Some(Render(i))) == Success(i)
  {
    var s := Render(i);
    NoWhiteAtEnds(s);
    assert Parse(Some(s)) == ParseTrimmed(s);
    if i < 0 {
      assert s == "-" + NatToDigits(-(i as int));
      ParseNegative(-(i as int));
    } else {
      assert s == NatToDigits(i);
      ParseNonNegative(i);
    }
  }

  lemma ParseNegative(n: nat)
    requires 0 < n <= -MinInt32
    ensures ParseTrimmed("-" + NatToDigits(n)) == Success((0 - n) as int32)
  {
    var d := NatToDigits(n);
    var t := "-" + d;
    assert t[0] == '-' && t[1..] == d;
    DigitsRoundTrip(n);
  }

  lemma ParseNonNegative(n: nat)
    requires n <= MaxInt32
    ensures ParseTrimmed(NatToDigits(n)) == Success(n as int32)
  {
    var d := NatToDigits(n);
    assert IsDigit(d[0]);
    DigitsRoundTrip(n);
  }

  /** Text holding a character that is neither a digit, a sign nor white space
      is rejected with a FormatException. */
  lemma ParseRejectsNonNumeric(s: string, c: char)
    requires c in s && !IsDigit(c) && c != '-' && c != '+' && !Text.IsNumberWhite(c)
    ensures Parse(Some(s)) == Failure(Format)
  {
    var t := Text.TrimBy(s, Text.IsNumberWhite);
    Text.TrimKeeps(s, Text.IsNumberWhite, c);
    var signed := |t| > 0 && (t[0] == '-' || t[0] == '+');
    var digits := if signed then t[1..] else t;
    var k :| 0 <= k < |t| && t[k] == c;
    if signed {
      assert k != 0 && digits[k - 1] == c;
    } else {
      assert digits[k] == c;
    }
  }

  /** The syntax NumberStyles.Integer accepts once the white space is gone: an
      optional sign and then one or more digits. */
  predicate IsIntegerText(t: string) {
    if |t| > 0 && (t[0] == '-' || t[0] == '+') then |t| > 1 && AllDigits(t[1..])
    else |t| > 0 && AllDigits(t)
  }

  /** Parsing succeeds only on integer syntax, and anything else (the empty
      string, a lone sign, inner white space, a misplaced sign) is a
      FormatException. */
  lemma ParseSyntax(s: string)
    ensures Parse(Some(s)).Success? ==> IsIntegerText(Text.TrimBy(s, Text.IsNumberWhite))
    ensures !IsIntegerText(Text.TrimBy(s, Text.IsNumberWhite)) ==> Parse(Some(s)) == Failure(Format)
  {
    var t := Text.TrimBy(s, Text.IsNumberWhite);
    assert Parse(Some(s)) == ParseTrimmed(t);
  }

  /** A digit string denoting a number above Int32.MaxValue overflows. */
  lemma ParseOverflows(n: nat)
    requires n > MaxInt32
    ensures Parse(Some(NatToDigits(n))) == Failure(Overflow)
  {
    var s := NatToDigits(n);
    NoWhiteAtEnds(s);
    DigitsRoundTrip(n);
  }
}

=== FILE: exceptions.dfy ===
/** The .NET exceptions the configuration core can raise or catch. Only the
    distinction the code relies on is kept: which of them are ArgumentExceptions. */
module Exceptions {

  import Types

  datatype Exn =
    | NullReference                         // member access on null
    | ArgumentNull                          // ArgumentNullException
    | Argument                              // ArgumentException (Enum.Parse, reflection writes)
    | DuplicateKey(key: string)             // ArgumentException thrown by Dictionary.Add
    | Format                                // FormatException from Int32.Parse
    | Overflow                              // OverflowException from Int32.Parse
    | IndexOutOfRange                       // array index past the end
    | InvalidCast                           // the (T) cast inside Converter<T>.ConvertFrom
    | KeyNotFound                           // Dictionary indexer on a missing key
    | ConverterMissing(tag: Types.TypeTag) // "Configuration converter missing ..."

  /** True for the exceptions a `catch (ArgumentException)` intercepts. */
  predicate IsArgumentException(e: Exn) {
    e.ArgumentNull? || e.Argument? || e.DuplicateKey?
  }
}

=== FILE: lineformat.dfy ===
/** The settings file format: ReadSettings keeps each line that splits on '='
    into exactly two trimmed pieces, WriteSettings writes "key\t=\tvalue".
    Opening, reading and writing the file itself is not part of this model;
    a file is the sequence of its lines. */
module LineFormat {

  import opened Wrappers
  import opened Exceptions
  import opened Lists
  import Text

  /** Characters only ever removed by trimming. */
  lemma TrimAddsNothing(s: string, c: char)
    requires c !in s
    ensures c !in Text.Trim(s)
  {
    var t := Text.TrimStartBy(s, Text.IsWhiteSpace);
    assert c !in t by {
      SliceAddsNothing(s, |s| - |t|, |s|, c);
    }
    var r := Text.TrimEndBy(t, Text.IsWhiteSpace);
    SliceAddsNothing(t, 0, |r|, c);
  }

  lemma SliceAddsNothing(s: string, lo: int, hi: int, c: char)
    requires 0 <= lo <= hi <= |s| && c !in s
    ensures c !in s[lo..hi]
  {
    assert forall i :: 0 <= i < hi - lo ==> s[lo..hi][i] == s[lo + i];
  }

  /** The key/value pair a line carries: present exactly when the line holds a
      single '=', both halves trimmed and free of '='. */
  function ParseLine(line: string): (r: Option<(string, string)>)
    ensures r.Some? <==> Text.Count(line, '=') == 1
    ensures r.Some? ==> Text.IsTrimmed(r.value.0) && Text.IsTrimmed(r.value.1)
    ensures r.Some? ==> '=' !in r.value.0 && '=' !in r.value.1
  {
    var kv := Text.Split(line, '=');
    if |kv| == 2 then
      TrimAddsNothing(kv[0], '=');
      TrimAddsNothing(kv[1], '=');
      Text.TrimIdempotent(kv[0]);
      Text.TrimIdempotent(kv[1]);
      Some((Text.Trim(kv[0]), Text.Trim(kv[1])))
    else
      None
  }

  /** One line of the written file. */
  function FormatLine(key: string, value: string): string {
    key + "\t=\t" + value
  }

  /** A key or value the file format can carry: no '=', no line break, no
      white space at either end. */
  predicate Storable(s: string) {
    '=' !in s && '\n' !in s && '\r' !in s && Text.IsTrimmed(s)
  }

  /** A written line reads back as the pair it was written from, and it is a
      single line of text. */
  lemma LineRoundTrip(key: string, value: string)
    requires Storable(key) && Storable(value)
    ensures ParseLine(FormatLine(key, value)) == Some((key, value))
    ensures '\n' !in FormatLine(key, value) && '\r' !in FormatLine(key, value)
  {
    ParseFormatted(key, value);
    TrimTabAfter(key);
    TrimTabBefore(value);
    FormattedSingleLine(key, value);
  }

  /** The separator adds no line break. */
  lemma FormattedSingleLine(key: string, value: string)
    requires '\n' !in key && '\r' !in key && '\n' !in value && '\r' !in value
    ensures '\n' !in FormatLine(key, value) && '\r' !in FormatLine(key, value)
  {
    var sep := "\t=\t";
    assert forall i :: 0 <= i < |sep| ==> sep[i] == '\t' || sep[i] == '=';
    NotInConcat(key, sep, value, '\n');
    NotInConcat(key, sep, value, '\r');
  }

  /** A written line reads back as the trimmed halves around its separator. */
  lemma ParseFormatted(key: string, value: string)
    requires '=' !in key && '=' !in value
    ensures ParseLine(FormatLine(key, value)) == Some((Text.Trim(key + "\t"), Text.Trim("\t" + value)))
  {
    SplitFormatted(key, value);
    ParseSplitPair(FormatLine(key, value), key + "\t", "\t" + value);
  }

  /** A line that splits into two pieces carries their trimmed forms. */
  lemma ParseSplitPair(line: string, left: string, right: string)
    requires Text.Split(line, '=') == [left, right]
    ensures ParseLine(line) == Some((Text.Trim(left), Text.Trim(right)))
  {
  }

  lemma NotInConcat(a: string, b: string, c: string, ch: char)
    requires ch !in a && ch !in b && ch !in c
    ensures ch !in a + b + c
  {
  }

  lemma SplitFormatted(key: string, value: string)
    requires '=' !in key && '=' !in value
    ensures Text.Split(FormatLine(key, value), '=') == [key + "\t", "\t" + value]
  {
    var left, right := key + "\t", "\t" + value;
    assert FormatLine(key, value) == left + ['='] + right;
    Text.SplitAtFirst(left, right, '=');
    Text.SplitNoSeparator(right, '=');
  }

  /** The tab after a trimmed key is trimmed away. */
  lemma TrimTabAfter(key: string)
    requires Text.IsTrimmed(key)
    ensures Text.Trim(key + "\t") == key
  {
    assert Text.IsWhiteSpace('\t');
    assert [] + key + "\t" == key + "\t";
    Text.TrimPadded([], key, "\t", Text.IsWhiteSpace);
  }

  /** The tab before a trimmed value is trimmed away. */
  lemma TrimTabBefore(value: string)
    requires Text.IsTrimmed(value)
    ensures Text.Trim("\t" + value) == value
  {
    assert Text.IsWhiteSpace('\t');
    assert "\t" + value + [] == "\t" + value;
    Text.TrimPadded("\t", value, [], Text.IsWhiteSpace);
  }

  /** The pairs of the lines ParseLine accepts, in file order. */
  function Entries(lines: seq<string>): (es: seq<(string, string)>)
    ensures |es| <= |lines|
  {
    if |lines| == 0 then []
    else
      match ParseLine(lines[0])
      case None => Entries(lines[1..])
      case Some(kv) => [kv] + Entries(lines[1..])
  }

  ghost predicate DistinctKeys(es: seq<(string, string)>) {
    forall i, j :: 0 <= i < j < |es| ==> es[i].0 != es[j].0
  }

  /** Dictionary.Add of each pair in turn onto `acc`: fails on the first key
      already present, otherwise holds `acc` plus every pair. */
  function CollectInto(acc: map<string, string>, es: seq<(string, string)>): (r: Result<map<string, string>, Exn>)
    ensures r.Success? <==> DistinctKeys(es) && forall i :: 0 <= i < |es| ==> es[i].0 !in acc
    ensures r.Failure? ==> r.error.DuplicateKey?
    ensures r.Success? ==> forall k :: k in r.value <==> k in acc || exists i :: 0 <= i < |es| && es[i].0 == k
    ensures r.Success? ==> forall k :: k in acc ==> r.value[k] == acc[k]
    ensures r.Success? ==> forall i :: 0 <= i < |es| ==> r.value[es[i].0] == es[i].1
    decreases |es|
  {
    if |es| == 0 then Success(acc)
    else if es[0].0 in acc then Failure(DuplicateKey(es[0].0))
    else
      var r := CollectInto(acc[es[0].0 := es[0].1], es[1..]);
      assert forall i :: 1 <= i < |es| ==> es[i] == es[1..][i - 1];
      r
  }

  /** ReadSettings: the settings a file holds; a key given twice throws. */
  function ParseSettings(lines: seq<string>): Result<map<string, string>, Exn> {
    CollectInto(map[], Entries(lines))
  }

  /** WriteSettings: one line per key, in the dictionary's enumeration order. */
  function FormatSettings(m: map<string, string>, order: seq<string>): (lines: seq<string>)
    requires forall i :: 0 <= i < |order| ==> order[i] in m
    ensures |lines| == |order|
    ensures forall i :: 0 <= i < |order| ==> lines[i] == FormatLine(order[i], m[order[i]])
  {
    if |order| == 0 then [] else [FormatLine(order[0], m[order[0]])] + FormatSettings(m, order[1..])
  }

  lemma {:induction false} EntriesOfFormatted(m: map<string, string>, order: seq<string>)
    requires forall i :: 0 <= i < |order| ==> order[i] in m
    requires forall k :: k in m ==> Storable(k) && Storable(m[k])
    ensures |Entries(FormatSettings(m, order))| == |order|
    ensures forall i :: 0 <= i < |order| ==> Entries(FormatSettings(m, order))[i] == (order[i], m[order[i]])
    decreases |order|
  {
    if |order| > 0 {
      var lines := FormatSettings(m, order);
      assert ParseLine(lines[0]) == Some((order[0], m[order[0]])) by {
        LineRoundTrip(order[0], m[order[0]]);
      }
      assert lines[1..] == FormatSettings(m, order[1..]);
      assert Entries(lines) == [(order[0], m[order[0]])] + Entries(lines[1..]);
      EntriesOfFormatted(m, order[1..]);
    }
  }

  /** Writing the settings and reading the file back gives the same settings,
      whenever every key and value is storable. */
  lemma WriteReadRoundTrip(m: map<string, string>, order: seq<string>)
    requires Enumerates(order, m.Keys)
    requires forall k :: k in m ==> Storable(k) && Storable(m[k])
    ensures ParseSettings(FormatSettings(m, order)) == Success(m)
  {
    EntriesOfFormatted(m, order);
    CollectEnumerated(m, order, Entries(FormatSettings(m, order)));
  }

  lemma CollectEnumerated(m: map<string, string>, order: seq<string>, es: seq<(string, string)>)
    requires Enumerates(order, m.Keys)
    requires |es| == |order|
    requires forall i :: 0 <= i < |order| ==> es[i] == (order[i], m[order[i]])
    ensures CollectInto(map[], es) == Success(m)
  {
    assert DistinctKeys(es) by {
      forall i, j | 0 <= i < j < |es| ensures es[i].0 != es[j].0 {
        assert es[i].0 == order[i] && es[j].0 == order[j];
      }
    }
    var r := CollectInto(map[], es);
    assert r.Success?;
    var got := r.value;
    forall k | k in got ensures k in m {
      var i :| 0 <= i < |es| && es[i].0 == k;
      assert order[i] == k;
    }
    forall k | k in m ensures k in got && got[k] == m[k] {
      var i :| 0 <= i < |order| && order[i] == k;
      assert es[i].0 == k && es[i].1 == m[k];
    }
    assert got == m;
  }
}

=== FILE: lists.dfy ===
/** Small facts about sequences used as ordered, duplicate-free lists. */
module Lists {

  /** No element occurs twice. */
  ghost predicate NoDup<T>(xs: seq<T>) {
    forall i, j :: 0 <= i < j < |xs| ==> xs[i] != xs[j]
  }

  /** `order` lists every element of `keys` exactly once: the enumeration order
      of a .NET Dictionary, which the model takes as a parameter. */
  ghost predicate Enumerates<T>(order: seq<T>, keys: set<T>) {
    && NoDup(order)
    && (forall k :: k in keys ==> k in order)
    && (forall i :: 0 <= i < |order| ==> order[i] in keys)
  }

  /** Appending an element that is not yet present keeps a list duplicate-free. */
  lemma {:induction false} NoDupAppend<T>(xs: seq<T>, x: T)
    requires NoDup(xs) && x !in xs
    ensures NoDup(xs + [x])
  {
    forall i, j | 0 <= i < j < |xs + [x]|
      ensures (xs + [x])[i] != (xs + [x])[j]
    {
      if j == |xs| {
        assert (xs + [x])[i] == xs[i];
        assert xs[i] in xs;
      } else {
        assert (xs + [x])[i] == xs[i] && (xs + [x])[j] == xs[j];
      }
    }
  }
}

=== FILE: settings.dfy ===
/** The Settings facade: the binding directory (setting key to bindings), the
    list of refreshable components, and the synchroniser that pushes setting
    values into bound members. Its static fields are gathered in one Runtime
    record that every operation takes and returns. */
module Settings {

  import opened Wrappers
  import opened Types
  import opened Exceptions
  import opened Lists
  import Converters
  import Configuration
  import LineFormat
  import opened Bindings
  import opened BindingSets

  /** Setting key to the bindings registered under it, in registration order. */
  type Directory = map<string, seq<Binding>>

  /** `syncing` tells whether the store's OnChange callback is SyncValue;
      `initialized` whether the directory and the refreshables exist (they are
      null until Initialize); `activator` whether BindingSet.onActivated is
      set (to PushBindingSet); `refreshLog` records the Refresh() calls, in
      order. */
  datatype Runtime = Runtime(
    conf: Configuration.Store,
    syncing: bool,
    initialized: bool,
    directory: Directory,
    refreshables: seq<ComponentId>,
    allReferenced: Option<seq<BindingSet>>,
    activator: bool,
    world: World,
    refreshLog: seq<ComponentId>)

  /** Initialize has run: the directory exists and the store is loaded. */
  predicate Ready(rt: Runtime) {
    rt.initialized && rt.conf.loaded
  }

  function Lookup(dir: Directory, key: string): seq<Binding> {
    if key in dir then dir[key] else []
  }

  /** The bindings of `bs` whose source is `key`, in order. */
  function Filter(bs: seq<Binding>, key: string): (r: seq<Binding>)
    ensures |r| <= |bs|
  {
    if |bs| == 0 then []
    else (if bs[0].source == key then [bs[0]] else []) + Filter(bs[1..], key)
  }

  lemma {:induction false} FilterAppend(a: seq<Binding>, b: seq<Binding>, key: string)
    ensures Filter(a + b, key) == Filter(a, key) + Filter(b, key)
    decreases |a|
  {
    if |a| == 0 {
      assert a + b == b;
    } else {
      var head := if a[0].source == key then [a[0]] else [];
      assert (a + b)[0] == a[0];
      assert (a + b)[1..] == a[1..] + b;
      FilterAppend(a[1..], b, key);
      calc {
        Filter(a + b, key);
        head + Filter(a[1..] + b, key);
        head + (Filter(a[1..], key) + Filter(b, key));
        (head + Filter(a[1..], key)) + Filter(b, key);
      }
    }
  }

  /** A component that implements IBindingRefreshable (null does not). */
  predicate IsRefreshable(w: World, c: ComponentId) {
    c in w && w[c].refreshable
  }

  /** A binding SyncValue can pass without throwing: its type is set, or its
      component is not null (the warning for an unset type reads the
      component's game object, outside the try block). */
  predicate Safe(b: Binding, w: World) {
    b.bindingType.Some? || b.component in w
  }

  /** The value a typed binding's converter decodes from `value`, if the
      converter is registered and the decoding succeeds. */
  function Decoded(reg: Converters.Registry, b: Binding, value: Option<string>): Option<Value> {
    if b.bindingType.None? || b.bindingType.value !in reg then None
    else
      match Converters.ConvertTo(reg[b.bindingType.value], value)
      case Success(v) => Some(v)
      case Failure(_) => None
  }

  /** The binding's member accepts the decoded value. */
  predicate Writable(reg: Converters.Registry, b: Binding, w: World, value: Option<string>) {
    Decoded(reg, b, value).Some? && b.component in w && Accepts(w[b.component], b.field, Decoded(reg, b, value).value)
  }

  /** One iteration of SyncValue's loop: a binding without a type is skipped
      with a warning (which throws on a null component); for a typed binding,
      a missing converter, a failed conversion or a failed write is caught and
      the binding skipped. */
  function SyncBinding(reg: Converters.Registry, b: Binding, w: World, value: Option<string>): (r: Result<World, Exn>)
    ensures r.Success? <==> Safe(b, w)
    ensures r.Failure? ==> r.error == NullReference
    ensures r.Success? ==> SameShape(w, r.value)
    ensures r.Success? && !Writable(reg, b, w, value) ==> r.value == w
    ensures Writable(reg, b, w, value) && MemberOf(w[b.component], b.field).Some? ==>
      Holds(r.value, b.component, b.field, Decoded(reg, b, value).value)
  {
    if b.bindingType.None? then
      if b.component in w then Success(w) else Failure(NullReference)
    else
      match Decoded(reg, b, value)
      case None => Success(w)
      case Some(v) =>
        var attempt := SetValue(w, b, Some(v));
        if attempt.Success? then attempt else Success(w)
  }

  /** A binding of a loaded type the store has no converter for (float or
      Color, say) is typed after deserialisation, so SyncValue's try block
      catches the missing converter and skips it, even when its component is
      null. */
  lemma UnconvertedTypeSkipped(reg: Converters.Registry, others: set<string>, b: Binding, w: World, value: Option<string>)
    requires b.typeName in others && !Converters.ModelledName(b.typeName)
    requires OtherTag(b.typeName) !in reg
    ensures SyncBinding(reg, OnAfterDeserialize(others, b), w, value) == Success(w)
  {
  }

  /** Syncing one binding leaves every other member's value alone. */
  lemma SyncBindingKeeps(reg: Converters.Registry, b: Binding, w: World, value: Option<string>,
                         c: ComponentId, name: string, x: Value)
    requires Holds(w, c, name, x) && (c != b.component || name != b.field)
    requires SyncBinding(reg, b, w, value).Success?
    ensures Holds(SyncBinding(reg, b, w, value).value, c, name, x)
  {
    if b.bindingType.Some? && Decoded(reg, b, value).Some? && SetValue(w, b, Decoded(reg, b, value)).Success? {
      SetValueKeepsOthers(w, b, Decoded(reg, b, value), c, name, x);
    }
  }

  /** SyncValue's loop over the bindings of one key, in order. */
  function SyncAll(reg: Converters.Registry, bs: seq<Binding>, w: World, value: Option<string>): (r: Result<World, Exn>)
    ensures r.Success? <==> forall i :: 0 <= i < |bs| ==> Safe(bs[i], w)
    ensures r.Failure? ==> r.error == NullReference
    ensures r.Success? ==> SameShape(w, r.value)
    decreases |bs|
  {
    if |bs| == 0 then Success(w)
    else
      match SyncBinding(reg, bs[0], w, value)
      case Failure(e) => Failure(e)
      case Success(w1) =>
        var r := SyncAll(reg, bs[1..], w1, value);
        assert forall i :: 1 <= i < |bs| ==> bs[i] == bs[1..][i - 1];
        assert forall i :: 0 <= i < |bs| ==> (Safe(bs[i], w) <==> Safe(bs[i], w1));
        r
  }


  /** SyncValue(key, value) over a directory: a key without bindings writes
      nothing. */
  function SyncValue(reg: Converters.Registry, dir: Directory, w: World, key: string, value: Option<string>): (r: Result<World, Exn>)
    ensures key !in dir ==> r == Success(w)
    ensures r.Success? <==> forall i :: 0 <= i < |Lookup(dir, key)| ==> Safe(Lookup(dir, key)[i], w)
    ensures r.Success? ==> SameShape(w, r.value)
  {
    if key in dir then
      assert Lookup(dir, key) == dir[key];
      SyncAll(reg, dir[key], w, value)
    else Success(w)
  }

  /** A binding that cannot be written is skipped: the sync of its siblings
      goes on exactly as if it were absent. */
  lemma SkipsFailingBinding(reg: Converters.Registry, bs: seq<Binding>, w: World, value: Option<string>)
    requires |bs| > 0 && bs[0].bindingType.Some? && !Writable(reg, bs[0], w, value)
    ensures SyncAll(reg, bs, w, value) == SyncAll(reg, bs[1..], w, value)
  {
  }

  /** One step of SyncAll. */
  lemma SyncAllUnfold(reg: Converters.Registry, bs: seq<Binding>, w: World, value: Option<string>)
    requires |bs| > 0 && SyncAll(reg, bs, w, value).Success?
    ensures SyncBinding(reg, bs[0], w, value).Success?
    ensures SyncAll(reg, bs, w, value) == SyncAll(reg, bs[1..], SyncBinding(reg, bs[0], w, value).value, value)
  {
  }

  /** Members no binding of `bs` names keep their values through the sync. */
  lemma {:induction false} SyncAllKeeps(reg: Converters.Registry, bs: seq<Binding>, w: World, value: Option<string>,
                                        c: ComponentId, name: string, x: Value)
    requires Holds(w, c, name, x)
    requires forall j :: 0 <= j < |bs| ==> bs[j].component != c || bs[j].field != name
    requires SyncAll(reg, bs, w, value).Success?
    ensures Holds(SyncAll(reg, bs, w, value).value, c, name, x)
    decreases |bs|
  {
    if |bs| > 0 {
      SyncAllUnfold(reg, bs, w, value);
      var w1 := SyncBinding(reg, bs[0], w, value).value;
      SyncBindingKeeps(reg, bs[0], w, value, c, name, x);
      assert forall j :: 0 <= j < |bs| - 1 ==> bs[1..][j] == bs[j + 1];
      SyncAllKeeps(reg, bs[1..], w1, value, c, name, x);
    }
  }

  /** Fan-out: every binding whose member accepts the decoded value receives
      it, whatever happens to the bindings before and after it, unless a later
      binding writes the same member. */
  lemma {:induction false} SyncDelivers(reg: Converters.Registry, bs: seq<Binding>, w: World, value: Option<string>, i: nat)
    requires i < |bs|
    requires forall j :: 0 <= j < |bs| ==> Safe(bs[j], w)
    requires Writable(reg, bs[i], w, value) && MemberOf(w[bs[i].component], bs[i].field).Some?
    requires forall j :: i < j < |bs| ==> bs[j].component != bs[i].component || bs[j].field != bs[i].field
    ensures Holds(SyncAll(reg, bs, w, value).value, bs[i].component, bs[i].field, Decoded(reg, bs[i], value).value)
    decreases |bs|
  {
    if i == 0 {
      SyncDeliversFirst(reg, bs, w, value);
    } else {
      SyncAllUnfold(reg, bs, w, value);
      var w1 := SyncBinding(reg, bs[0], w, value).value;
      assert Holds(SyncAll(reg, bs[1..], w1, value).value, bs[i].component, bs[i].field, Decoded(reg, bs[i], value).value) by {
        SyncDeliversStep(reg, bs, w, value, i);
        SyncDelivers(reg, bs[1..], w1, value, i - 1);
        assert bs[1..][i - 1] == bs[i];
      }
    }
  }

  /** After the first binding is synced, the rest of the loop still meets
      SyncDelivers' conditions for the same binding. */
  lemma SyncDeliversStep(reg: Converters.Registry, bs: seq<Binding>, w: World, value: Option<string>, i: nat)
    requires 0 < i < |bs|
    requires forall j :: 0 <= j < |bs| ==> Safe(bs[j], w)
    requires Writable(reg, bs[i], w, value) && MemberOf(w[bs[i].component], bs[i].field).Some?
    requires forall j :: i < j < |bs| ==> bs[j].component != bs[i].component || bs[j].field != bs[i].field
    ensures SyncBinding(reg, bs[0], w, value).Success?
    ensures var w1 := SyncBinding(reg, bs[0], w, value).value;
      && SyncAll(reg, bs, w, value) == SyncAll(reg, bs[1..], w1, value)
      && (forall j :: 0 <= j < |bs[1..]| ==> Safe(bs[1..][j], w1))
      && Writable(reg, bs[1..][i - 1], w1, value) && MemberOf(w1[bs[1..][i - 1].component], bs[1..][i - 1].field).Some?
      && (forall j :: i - 1 < j < |bs[1..]| ==> bs[1..][j].component != bs[1..][i - 1].component || bs[1..][j].field != bs[1..][i - 1].field)
  {
    SyncAllUnfold(reg, bs, w, value);
    var w1 := SyncBinding(reg, bs[0], w, value).value;
    ShapeKeepsKinds(w, w1);
    assert forall j :: 0 <= j < |bs| - 1 ==> bs[1..][j] == bs[j + 1];
    AcceptsDependsOnShape(w, w1, bs[i].component, bs[i].field, Decoded(reg, bs[i], value).value);
  }

  /** The first binding receives its value, and no later binding undoes it. */
  lemma SyncDeliversFirst(reg: Converters.Registry, bs: seq<Binding>, w: World, value: Option<string>)
    requires |bs| > 0
    requires forall j :: 0 <= j < |bs| ==> Safe(bs[j], w)
    requires Writable(reg, bs[0], w, value) && MemberOf(w[bs[0].component], bs[0].field).Some?
    requires forall j :: 0 < j < |bs| ==> bs[j].component != bs[0].component || bs[j].field != bs[0].field
    ensures Holds(SyncAll(reg, bs, w, value).value, bs[0].component, bs[0].field, Decoded(reg, bs[0], value).value)
  {
    SyncAllUnfold(reg, bs, w, value);
    var w1 := SyncBinding(reg, bs[0], w, value).value;
    var x := Decoded(reg, bs[0], value).value;
    assert Holds(SyncAll(reg, bs[1..], w1, value).value, bs[0].component, bs[0].field, x) by {
      assert Holds(w1, bs[0].component, bs[0].field, x);
      assert forall j :: 0 <= j < |bs| - 1 ==> bs[1..][j] == bs[j + 1];
      SyncAllKeeps(reg, bs[1..], w1, value, bs[0].component, bs[0].field, x);
    }
  }

  /** Safety and refreshability are about which components exist and what
      they implement, so a sync cannot change them. */
  lemma ShapeKeepsKinds(w: World, w': World)
    requires SameShape(w, w')
    ensures forall b :: Safe(b, w) <==> Safe(b, w')
    ensures forall c :: IsRefreshable(w, c) <==> IsRefreshable(w', c)
  {
    forall c | c in w ensures w[c].refreshable == w'[c].refreshable {
      assert ShapeOf(w[c]).refreshable == ShapeOf(w'[c]).refreshable;
    }
  }

  /** SyncValue as Settings calls it: before Initialize the directory is null. */
  function SyncKey(rt: Runtime, key: string, value: Option<string>): (r: Result<Runtime, Exn>)
    ensures !rt.initialized ==> r == Failure(NullReference)
    ensures rt.initialized ==> (r.Success? <==> SyncValue(rt.conf.converters, rt.directory, rt.world, key, value).Success?)
    ensures r.Success? ==> r.value.(world := rt.world) == rt
    ensures r.Success? ==> r.value.world == SyncValue(rt.conf.converters, rt.directory, rt.world, key, value).value
  {
    if !rt.initialized then Failure(NullReference)
    else
      match SyncValue(rt.conf.converters, rt.directory, rt.world, key, value)
      case Failure(e) => Failure(e)
      case Success(w) => Success(rt.(world := w))
  }

  /** Every binding already in the directory can be synced without throwing. */
  ghost predicate DirectorySafe(dir: Directory, w: World) {
    forall k, j :: k in dir && 0 <= j < |dir[k]| ==> Safe(dir[k][j], w)
  }

  /** Whether PushBindingSet starts tracking the binding's component. */
  predicate NewRefreshable(rt: Runtime, b: Binding) {
    IsRefreshable(rt.world, b.component) && b.component !in rt.refreshables
  }

  /** One binding of PushBindingSet's loop: file it under its source, track
      its component if it is refreshable and new (calling Refresh() once), then
      sync every binding of that source with the current stored text (whose
      read throws while the store is not loaded). */
  function PushBinding(rt: Runtime, b: Binding): (r: Result<Runtime, Exn>)
    ensures !Ready(rt) ==> r == Failure(NullReference)
    ensures Ready(rt) && DirectorySafe(rt.directory, rt.world) && Safe(b, rt.world) ==> r.Success?
    ensures r.Success? ==> r.value.directory == rt.directory[b.source := Lookup(rt.directory, b.source) + [b]]
    ensures r.Success? && NewRefreshable(rt, b) ==>
      r.value.refreshables == rt.refreshables + [b.component] && r.value.refreshLog == rt.refreshLog + [b.component]
    ensures r.Success? && !NewRefreshable(rt, b) ==>
      r.value.refreshables == rt.refreshables && r.value.refreshLog == rt.refreshLog
    ensures r.Success? ==> r.value.(directory := rt.directory, refreshables := rt.refreshables,
                                    refreshLog := rt.refreshLog, world := rt.world) == rt
    ensures r.Success? ==> SameShape(rt.world, r.value.world)
  {
    if !rt.initialized then Failure(NullReference)
    else
      var dir := rt.directory[b.source := Lookup(rt.directory, b.source) + [b]];
      var isNew := NewRefreshable(rt, b);
      var refreshables := if isNew then rt.refreshables + [b.component] else rt.refreshables;
      var log := if isNew then rt.refreshLog + [b.component] else rt.refreshLog;
      var rt1 := rt.(directory := dir, refreshables := refreshables, refreshLog := log);
      assert DirectorySafe(rt.directory, rt.world) && Safe(b, rt.world) ==>
        forall i :: 0 <= i < |Lookup(dir, b.source)| ==> Safe(Lookup(dir, b.source)[i], rt.world);
      if !rt.conf.loaded then Failure(NullReference)
      else SyncKey(rt1, b.source, Configuration.GetValue(rt.conf, b.source))
  }

  /** Pushing a binding re-syncs every binding already filed under its source
      with the current stored text: each member that accepts the decoded text
      holds it afterwards, unless a later binding writes the same member. */
  lemma PushBindingResyncs(rt: Runtime, b: Binding, i: nat)
    requires Ready(rt) && DirectorySafe(rt.directory, rt.world) && Safe(b, rt.world)
    requires var bs := Lookup(rt.directory, b.source) + [b];
      var text := Configuration.GetValue(rt.conf, b.source);
      && i < |bs|
      && Writable(rt.conf.converters, bs[i], rt.world, text)
      && MemberOf(rt.world[bs[i].component], bs[i].field).Some?
      && (forall j :: i < j < |bs| ==> bs[j].component != bs[i].component || bs[j].field != bs[i].field)
    ensures PushBinding(rt, b).Success?
    ensures var bs := Lookup(rt.directory, b.source) + [b];
      var text := Configuration.GetValue(rt.conf, b.source);
      Holds(PushBinding(rt, b).value.world, bs[i].component, bs[i].field, Decoded(rt.conf.converters, bs[i], text).value)
  {
    var bs := Lookup(rt.directory, b.source) + [b];
    assert forall j :: 0 <= j < |bs| ==> Safe(bs[j], rt.world);
    SyncDelivers(rt.conf.converters, bs, rt.world, Configuration.GetValue(rt.conf, b.source), i);
  }

  /** PushBindingSet's loop over a group's bindings, in order. */
  function PushAll(rt: Runtime, bs: seq<Binding>): (r: Result<Runtime, Exn>)
    ensures !Ready(rt) && |bs| > 0 ==> r == Failure(NullReference)
    ensures r.Success? ==> r.value.conf == rt.conf && r.value.syncing == rt.syncing && r.value.initialized == rt.initialized
    ensures r.Success? ==> r.value.allReferenced == rt.allReferenced && r.value.activator == rt.activator
    ensures r.Success? ==> SameShape(rt.world, r.value.world)
    decreases |bs|
  {
    if |bs| == 0 then Success(rt)
    else
      match PushBinding(rt, bs[0])
      case Failure(e) => Failure(e)
      case Success(rt1) => PushAll(rt1, bs[1..])
  }

  /** One step of PushAll. */
  lemma PushAllUnfold(rt: Runtime, bs: seq<Binding>)
    requires |bs| > 0 && PushAll(rt, bs).Success?
    ensures PushBinding(rt, bs[0]).Success?
    ensures PushAll(rt, bs) == PushAll(PushBinding(rt, bs[0]).value, bs[1..])
  {
  }

  /** PushBindingSet files every binding under its source, after the ones
      already there, in the group's order. */
  lemma {:induction false} PushAllDirectory(rt: Runtime, bs: seq<Binding>)
    requires PushAll(rt, bs).Success?
    ensures forall k :: Lookup(PushAll(rt, bs).value.directory, k) == Lookup(rt.directory, k) + Filter(bs, k)
    decreases |bs|
  {
    if |bs| > 0 {
      PushAllUnfold(rt, bs);
      var rt1 := PushBinding(rt, bs[0]).value;
      PushAllDirectory(rt1, bs[1..]);
      PushBindingLookup(rt, bs[0]);
      DirectoryStep(rt.directory, rt1.directory, PushAll(rt1, bs[1..]).value.directory, bs);
    }
  }

  lemma PushBindingLookup(rt: Runtime, b: Binding)
    requires PushBinding(rt, b).Success?
    ensures forall k :: Lookup(PushBinding(rt, b).value.directory, k) == Lookup(rt.directory, k) + (if b.source == k then [b] else [])
  {
  }

  lemma DirectoryStep(d0: Directory, d1: Directory, d2: Directory, bs: seq<Binding>)
    requires |bs| > 0
    requires forall k :: Lookup(d1, k) == Lookup(d0, k) + (if bs[0].source == k then [bs[0]] else [])
    requires forall k :: Lookup(d2, k) == Lookup(d1, k) + Filter(bs[1..], k)
    ensures forall k :: Lookup(d2, k) == Lookup(d0, k) + Filter(bs, k)
  {
    forall k ensures Lookup(d2, k) == Lookup(d0, k) + Filter(bs, k) {
      FilterCons(bs, k);
      Concat3(Lookup(d0, k), (if bs[0].source == k then [bs[0]] else []), Filter(bs[1..], k), Lookup(d1, k), Lookup(d2, k));
    }
  }

  lemma Concat3(a: seq<Binding>, h: seq<Binding>, f: seq<Binding>, l1: seq<Binding>, l2: seq<Binding>)
    requires l1 == a + h && l2 == l1 + f
    ensures l2 == a + (h + f)
  {
  }

  lemma FilterCons(bs: seq<Binding>, k: string)
    requires |bs| > 0
    ensures Filter(bs, k) == (if bs[0].source == k then [bs[0]] else []) + Filter(bs[1..], k)
  {
  }

  /** PushBindingSet cannot throw once Settings is initialized, as long as
      every binding, old and new, is typed or has a component. */
  lemma {:induction false} PushAllSucceeds(rt: Runtime, bs: seq<Binding>)
    requires Ready(rt) && DirectorySafe(rt.directory, rt.world)
    requires forall j :: 0 <= j < |bs| ==> Safe(bs[j], rt.world)
    ensures PushAll(rt, bs).Success?
    decreases |bs|
  {
    if |bs| > 0 {
      var rt1 := PushBinding(rt, bs[0]).value;
      ShapeKeepsKinds(rt.world, rt1.world);
      forall k, j | k in rt1.directory && 0 <= j < |rt1.directory[k]| ensures Safe(rt1.directory[k][j], rt1.world) {
        if k != bs[0].source || j < |Lookup(rt.directory, k)| {
          assert rt1.directory[k][j] == rt.directory[k][j];
        }
      }
      assert forall j :: 0 <= j < |bs| - 1 ==> bs[1..][j] == bs[j + 1];
      PushAllSucceeds(rt1, bs[1..]);
    }
  }

  /** PushBindingSet tracks each refreshable component once, in order of first
      appearance, calling Refresh() exactly on the ones it adds. */
  lemma {:induction false} PushAllRefreshables(rt: Runtime, bs: seq<Binding>)
    requires PushAll(rt, bs).Success?
    ensures var r := PushAll(rt, bs).value;
      && |r.refreshables| >= |rt.refreshables|
      && r.refreshables[..|rt.refreshables|] == rt.refreshables
      && r.refreshLog == rt.refreshLog + r.refreshables[|rt.refreshables|..]
    decreases |bs|
  {
    if |bs| > 0 {
      PushAllUnfold(rt, bs);
      var rt1 := PushBinding(rt, bs[0]).value;
      PushAllRefreshables(rt1, bs[1..]);
      var r := PushAll(rt1, bs[1..]).value;
      ExtendPrefix(rt.refreshables, rt.refreshLog, rt1.refreshables, rt1.refreshLog,
                   r.refreshables, r.refreshLog, NewRefreshable(rt, bs[0]), bs[0].component);
    }
  }

  /** One step of the refreshables' growth: a prefix of a prefix, and the log
      grows by what was appended. */
  lemma ExtendPrefix(a: seq<ComponentId>, log: seq<ComponentId>, a1: seq<ComponentId>, log1: seq<ComponentId>,
                     r: seq<ComponentId>, rlog: seq<ComponentId>, isNew: bool, x: ComponentId)
    requires isNew ==> a1 == a + [x] && log1 == log + [x]
    requires !isNew ==> a1 == a && log1 == log
    requires |r| >= |a1| && r[..|a1|] == a1 && rlog == log1 + r[|a1|..]
    ensures |r| >= |a| && r[..|a|] == a && rlog == log + r[|a|..]
  {
    if isNew {
      assert r[..|a|] == r[..|a| + 1][..|a|];
      assert r[|a|..] == [x] + r[|a| + 1..];
    }
  }

  /** Some binding of `bs` targets component `c`. */
  predicate Mentions(bs: seq<Binding>, c: ComponentId) {
    exists j :: 0 <= j < |bs| && bs[j].component == c
  }

  lemma MentionsCons(bs: seq<Binding>, c: ComponentId)
    requires |bs| > 0
    ensures Mentions(bs, c) <==> bs[0].component == c || Mentions(bs[1..], c)
  {
    if Mentions(bs, c) && bs[0].component != c {
      var j :| 0 <= j < |bs| && bs[j].component == c;
      assert bs[1..][j - 1].component == c;
    }
    if Mentions(bs[1..], c) {
      var j :| 0 <= j < |bs[1..]| && bs[1..][j].component == c;
      assert bs[j + 1].component == c;
    }
  }

  /** The tracked refreshables never repeat, and after PushBindingSet they are
      exactly the ones before plus the group's refreshable components. */
  lemma PushAllRefreshablesSet(rt: Runtime, bs: seq<Binding>)
    requires PushAll(rt, bs).Success?
    ensures NoDup(rt.refreshables) ==> NoDup(PushAll(rt, bs).value.refreshables)
    ensures forall c :: c in PushAll(rt, bs).value.refreshables <==>
      c in rt.refreshables || (IsRefreshable(rt.world, c) && Mentions(bs, c))
  {
    if NoDup(rt.refreshables) {
      PushAllNoDup(rt, bs);
    }
    forall c ensures c in PushAll(rt, bs).value.refreshables <==>
      c in rt.refreshables || (IsRefreshable(rt.world, c) && Mentions(bs, c))
    {
      PushAllMember(rt, bs, c);
    }
  }

  lemma {:induction false} PushAllNoDup(rt: Runtime, bs: seq<Binding>)
    requires PushAll(rt, bs).Success? && NoDup(rt.refreshables)
    ensures NoDup(PushAll(rt, bs).value.refreshables)
    decreases |bs|
  {
    if |bs| > 0 {
      PushAllUnfold(rt, bs);
      var rt1 := PushBinding(rt, bs[0]).value;
      if NewRefreshable(rt, bs[0]) {
        NoDupAppend(rt.refreshables, bs[0].component);
      }
      PushAllNoDup(rt1, bs[1..]);
    }
  }

  lemma {:induction false} PushAllMember(rt: Runtime, bs: seq<Binding>, c: ComponentId)
    requires PushAll(rt, bs).Success?
    ensures c in PushAll(rt, bs).value.refreshables <==>
      c in rt.refreshables || (IsRefreshable(rt.world, c) && Mentions(bs, c))
    decreases |bs|
  {
    if |bs| > 0 {
      PushAllUnfold(rt, bs);
      var rt1 := PushBinding(rt, bs[0]).value;
      ShapeKeepsKinds(rt.world, rt1.world);
      PushAllMember(rt1, bs[1..], c);
      MentionsCons(bs, c);
    }
  }

  /** The bindings of a sequence of groups, group after group. */
  function Flatten(sets: seq<BindingSet>): seq<Binding> {
    if |sets| == 0 then [] else sets[0].bindings + Flatten(sets[1..])
  }

  /** PushBindingSet for each group in turn, as Rebind does. */
  function PushSets(rt: Runtime, sets: seq<BindingSet>): (r: Result<Runtime, Exn>)
    ensures r.Success? ==> r.value.conf == rt.conf && r.value.syncing == rt.syncing && r.value.initialized == rt.initialized
    ensures r.Success? ==> r.value.allReferenced == rt.allReferenced && r.value.activator == rt.activator
    ensures r.Success? ==> SameShape(rt.world, r.value.world)
    decreases |sets|
  {
    if |sets| == 0 then Success(rt)
    else
      match PushAll(rt, sets[0].bindings)
      case Failure(e) => Failure(e)
      case Success(rt1) => PushSets(rt1, sets[1..])
  }

  lemma {:induction false} PushSetsDirectory(rt: Runtime, sets: seq<BindingSet>)
    requires PushSets(rt, sets).Success?
    ensures forall k :: Lookup(PushSets(rt, sets).value.directory, k) == Lookup(rt.directory, k) + Filter(Flatten(sets), k)
    decreases |sets|
  {
    if |sets| > 0 {
      var rt1 := PushAll(rt, sets[0].bindings).value;
      assert PushSets(rt, sets) == PushSets(rt1, sets[1..]);
      PushAllDirectory(rt, sets[0].bindings);
      PushSetsDirectory(rt1, sets[1..]);
      AppendStep(rt.directory, rt1.directory, PushSets(rt1, sets[1..]).value.directory, sets[0].bindings, Flatten(sets[1..]));
    }
  }

  lemma AppendStep(d0: Directory, d1: Directory, d2: Directory, xs: seq<Binding>, ys: seq<Binding>)
    requires forall k :: Lookup(d1, k) == Lookup(d0, k) + Filter(xs, k)
    requires forall k :: Lookup(d2, k) == Lookup(d1, k) + Filter(ys, k)
    ensures forall k :: Lookup(d2, k) == Lookup(d0, k) + Filter(xs + ys, k)
  {
    forall k ensures Lookup(d2, k) == Lookup(d0, k) + Filter(xs + ys, k) {
      FilterAppend(xs, ys, k);
      Concat3(Lookup(d0, k), Filter(xs, k), Filter(ys, k), Lookup(d1, k), Lookup(d2, k));
    }
  }

  lemma {:induction false} PushSetsNoDup(rt: Runtime, sets: seq<BindingSet>)
    requires PushSets(rt, sets).Success? && NoDup(rt.refreshables)
    ensures NoDup(PushSets(rt, sets).value.refreshables)
    decreases |sets|
  {
    if |sets| > 0 {
      PushAllRefreshablesSet(rt, sets[0].bindings);
      PushSetsNoDup(PushAll(rt, sets[0].bindings).value, sets[1..]);
    }
  }

  /** The refreshables after pushing several groups: the ones before plus the
      refreshable components any of the groups' bindings target. */
  lemma {:induction false} PushSetsMember(rt: Runtime, sets: seq<BindingSet>, c: ComponentId)
    requires PushSets(rt, sets).Success?
    ensures c in PushSets(rt, sets).value.refreshables <==>
      c in rt.refreshables || (IsRefreshable(rt.world, c) && Mentions(Flatten(sets), c))
    decreases |sets|
  {
    if |sets| > 0 {
      var rt1 := PushAll(rt, sets[0].bindings).value;
      assert PushSets(rt, sets) == PushSets(rt1, sets[1..]);
      PushAllMember(rt, sets[0].bindings, c);
      ShapeKeepsKinds(rt.world, rt1.world);
      PushSetsMember(rt1, sets[1..], c);
      MentionsAppend(sets[0].bindings, Flatten(sets[1..]), c);
    }
  }

  lemma MentionsAppend(xs: seq<Binding>, ys: seq<Binding>, c: ComponentId)
    ensures Mentions(xs + ys, c) <==> Mentions(xs, c) || Mentions(ys, c)
  {
    if Mentions(xs + ys, c) {
      var j :| 0 <= j < |xs + ys| && (xs + ys)[j].component == c;
      if j >= |xs| {
        assert ys[j - |xs|].component == c;
      }
    }
    if Mentions(ys, c) {
      var j :| 0 <= j < |ys| && ys[j].component == c;
      assert (xs + ys)[|xs| + j].component == c;
    }
    if Mentions(xs, c) {
      var j :| 0 <= j < |xs| && xs[j].component == c;
      assert (xs + ys)[j].component == c;
    }
  }

  /** The bindings of every group that has woken up. */
  function Referenced(all: Option<seq<BindingSet>>): seq<Binding> {
    if all.None? then [] else Flatten(all.value)
  }

  /** Rebind: empties the directory and the refreshables, then pushes every
      referenced group again, in order; with no group referenced, both stay
      empty. Before Initialize the directory is null. */
  function Rebind(rt: Runtime): (r: Result<Runtime, Exn>)
    ensures !rt.initialized ==> r == Failure(NullReference)
    ensures rt.initialized && rt.allReferenced.None? ==>
      r == Success(rt.(directory := map[], refreshables := []))
    ensures r.Success? ==> r.value.conf == rt.conf && r.value.syncing == rt.syncing && r.value.initialized
    ensures r.Success? ==> r.value.allReferenced == rt.allReferenced && r.value.activator == rt.activator
    ensures r.Success? ==> SameShape(rt.world, r.value.world)
  {
    if !rt.initialized then Failure(NullReference)
    else
      var cleared := rt.(directory := map[], refreshables := []);
      if rt.allReferenced.None? then Success(cleared) else PushSets(cleared, rt.allReferenced.value)
  }

  /** After Rebind the directory holds exactly the referenced groups'
      bindings, in order, whatever it held before; the refreshables are
      exactly the refreshable components those bindings target, stale ones
      dropped, and they do not repeat. */
  lemma RebindRebuilds(rt: Runtime)
    requires Rebind(rt).Success?
    ensures forall k :: Lookup(Rebind(rt).value.directory, k) == Filter(Referenced(rt.allReferenced), k)
    ensures NoDup(Rebind(rt).value.refreshables)
    ensures forall c :: c in Rebind(rt).value.refreshables <==>
      IsRefreshable(rt.world, c) && Mentions(Referenced(rt.allReferenced), c)
  {
    if rt.allReferenced.Some? {
      var cleared := rt.(directory := map[], refreshables := []);
      var sets := rt.allReferenced.value;
      RebindUnfold(rt);
      PushSetsDirectory(cleared, sets);
      PushSetsNoDup(cleared, sets);
      forall k ensures Lookup(PushSets(cleared, sets).value.directory, k) == Filter(Flatten(sets), k) {
        assert Lookup(cleared.directory, k) == [];
      }
      forall c ensures c in PushSets(cleared, sets).value.refreshables <==>
        IsRefreshable(rt.world, c) && Mentions(Flatten(sets), c)
      {
        PushSetsMember(cleared, sets, c);
      }
    }
  }

  lemma RebindUnfold(rt: Runtime)
    requires rt.initialized && rt.allReferenced.Some?
    ensures Rebind(rt) == PushSets(rt.(directory := map[], refreshables := []), rt.allReferenced.value)
  {
  }

  /** BindingSet.Awake: register the group, then hand it to PushBindingSet if
      the callback is set. */
  function Activate(rt: Runtime, s: BindingSet): (r: Result<Runtime, Exn>)
    ensures r.Success? ==> r.value.allReferenced == Some(Register(rt.allReferenced, s))
    ensures !rt.activator ==> r.Success? && r.value.(allReferenced := rt.allReferenced) == rt
    ensures rt.activator ==> r == PushAll(rt.(allReferenced := Some(Register(rt.allReferenced, s))), s.bindings)
  {
    var rt1 := rt.(allReferenced := Some(Register(rt.allReferenced, s)));
    if rt.activator then PushAll(rt1, s.bindings) else Success(rt1)
  }

  /** A group that wakes up twice is registered once but pushed twice: each of
      its bindings is filed (and synced) a second time. */
  lemma ActivateTwice(rt: Runtime, s: BindingSet)
    requires rt.activator
    requires Activate(rt, s).Success? && Activate(Activate(rt, s).value, s).Success?
    ensures Activate(Activate(rt, s).value, s).value.allReferenced == Activate(rt, s).value.allReferenced
    ensures forall k :: Lookup(Activate(Activate(rt, s).value, s).value.directory, k) == Lookup(rt.directory, k) + Filter(s.bindings, k) + Filter(s.bindings, k)
  {
    var rt1 := Activate(rt, s).value;
    RegisterIdempotent(rt.allReferenced, s);
    PushAllDirectory(rt.(allReferenced := Some(Register(rt.allReferenced, s))), s.bindings);
    PushAllDirectory(rt1.(allReferenced := Some(Register(rt1.allReferenced, s))), s.bindings);
  }

  /** The OnChange calls a store operation made, delivered to SyncValue in
      order when it is the installed callback. */
  function Deliver(rt: Runtime, notices: seq<Configuration.Notice>): (r: Result<Runtime, Exn>)
    ensures !rt.syncing || notices == [] ==> r == Success(rt)
    ensures r.Success? ==> r.value == rt.(world := r.value.world)
    ensures r.Success? ==> SameShape(rt.world, r.value.world)
    decreases |notices|
  {
    if |notices| == 0 || !rt.syncing then Success(rt)
    else
      match SyncKey(rt, notices[0].key, Some(notices[0].value))
      case Failure(e) => Failure(e)
      case Success(rt1) => Deliver(rt1, notices[1..])
  }

  /** Settings.Set: the store's Set, whose change reaches the bindings. */
  function Set(rt: Runtime, key: string, v: Value): (r: Result<Runtime, Exn>)
    ensures Configuration.Set(rt.conf, key, v).Failure? ==> r == Failure(Configuration.Set(rt.conf, key, v).error)
    ensures r.Success? ==> r.value.conf == Configuration.Set(rt.conf, key, v).value.store
    ensures r.Success? ==> r.value.directory == rt.directory && r.value.refreshables == rt.refreshables
    ensures r.Success? ==> r.value.(world := rt.world, conf := rt.conf) == rt
    ensures r.Success? ==> SameShape(rt.world, r.value.world)
  {
    match Configuration.Set(rt.conf, key, v)
    case Failure(e) => Failure(e)
    case Success(step) => Deliver(rt.(conf := step.store), step.notices)
  }

  /** An effective Set reaches every binding of the key: each member that
      accepts the value its converter decodes from the new stored text holds
      that value afterwards, unless a later binding writes the same member. */
  lemma SetSyncs(rt: Runtime, key: string, v: Value, i: nat)
    requires rt.initialized && rt.syncing && rt.conf.observed
    requires Configuration.Set(rt.conf, key, v).Success? && Configuration.Set(rt.conf, key, v).value.notices != []
    requires forall j :: 0 <= j < |Lookup(rt.directory, key)| ==> Safe(Lookup(rt.directory, key)[j], rt.world)
    requires var bs := Lookup(rt.directory, key);
      var text := Configuration.GetValue(Configuration.Set(rt.conf, key, v).value.store, key);
      && i < |bs|
      && Writable(rt.conf.converters, bs[i], rt.world, text)
      && MemberOf(rt.world[bs[i].component], bs[i].field).Some?
      && (forall j :: i < j < |bs| ==> bs[j].component != bs[i].component || bs[j].field != bs[i].field)
    ensures Set(rt, key, v).Success?
    ensures var bs := Lookup(rt.directory, key);
      var text := Configuration.GetValue(Configuration.Set(rt.conf, key, v).value.store, key);
      Holds(Set(rt, key, v).value.world, bs[i].component, bs[i].field, Decoded(rt.conf.converters, bs[i], text).value)
  {
    var step := Configuration.Set(rt.conf, key, v).value;
    EffectiveSet(rt.conf, key, v);
    var text := step.store.settings[key];
    var rt1 := rt.(conf := step.store);
    DeliverOne(rt1, Configuration.Notice(key, text));
    assert key in rt.directory;
    SyncDelivers(rt.conf.converters, rt.directory[key], rt.world, Some(text), i);
  }

  /** A Set that calls back makes exactly one call, with the new stored text. */
  lemma EffectiveSet(st: Configuration.Store, key: string, v: Value)
    requires Configuration.Set(st, key, v).Success? && Configuration.Set(st, key, v).value.notices != []
    ensures var step := Configuration.Set(st, key, v).value;
      && key in step.store.settings
      && step.notices == [Configuration.Notice(key, step.store.settings[key])]
      && step.store.converters == st.converters
  {
  }

  lemma DeliverOne(rt: Runtime, n: Configuration.Notice)
    requires rt.syncing
    ensures Deliver(rt, [n]) == SyncKey(rt, n.key, Some(n.value))
  {
  }

  /** TriggerRefreshables: Refresh() on every tracked component, in order. */
  function TriggerRefreshables(rt: Runtime): (r: Result<Runtime, Exn>)
    ensures r.Success? <==> rt.initialized
    ensures r.Failure? ==> r.error == NullReference
    ensures r.Success? ==> r.value.(refreshLog := rt.refreshLog) == rt
    ensures r.Success? ==> |r.value.refreshLog| == |rt.refreshLog| + |rt.refreshables|
    ensures r.Success? ==> r.value.refreshLog[..|rt.refreshLog|] == rt.refreshLog
    ensures r.Success? ==> forall i :: 0 <= i < |rt.refreshables| ==> r.value.refreshLog[|rt.refreshLog| + i] == rt.refreshables[i]
  {
    if !rt.initialized then Failure(NullReference)
    else Success(rt.(refreshLog := rt.refreshLog + rt.refreshables))
  }

  /** Settings.Revert(): the store's Revert, whose changes reach the bindings,
      then every refreshable is refreshed. */
  function Revert(rt: Runtime, order: seq<string>): (r: Result<Runtime, Exn>)
    requires Enumerates(order, rt.conf.changed.Keys)
    ensures !rt.conf.loaded ==> r == Failure(NullReference)
    ensures r.Success? ==> r.value.conf == Configuration.Revert(rt.conf, order).value.store
    ensures r.Success? ==> r.value.refreshLog == rt.refreshLog + rt.refreshables
    ensures r.Success? ==> r.value.directory == rt.directory && r.value.refreshables == rt.refreshables
    ensures r.Success? ==> r.value.(world := rt.world, conf := rt.conf, refreshLog := rt.refreshLog) == rt
    ensures r.Success? ==> SameShape(rt.world, r.value.world)
    ensures Ready(rt) && !rt.syncing ==> r.Success?
  {
    match Configuration.Revert(rt.conf, order)
    case Failure(e) => Failure(e)
    case Success(step) =>
      match Deliver(rt.(conf := step.store), step.notices)
      case Failure(e) => Failure(e)
      case Success(rt1) => TriggerRefreshables(rt1)
  }

  /** Settings.Revert(key). */
  function RevertKey(rt: Runtime, key: string): (r: Result<Runtime, Exn>)
    ensures !rt.conf.loaded ==> r == Failure(NullReference)
    ensures r.Success? ==> r.value.conf == Configuration.RevertKey(rt.conf, key).value.store
    ensures r.Success? ==> r.value.refreshLog == rt.refreshLog + rt.refreshables
    ensures r.Success? ==> r.value.directory == rt.directory && r.value.refreshables == rt.refreshables
    ensures r.Success? ==> r.value.(world := rt.world, conf := rt.conf, refreshLog := rt.refreshLog) == rt
    ensures r.Success? ==> SameShape(rt.world, r.value.world)
    ensures Ready(rt) && !rt.syncing ==> r.Success?
  {
    match Configuration.RevertKey(rt.conf, key)
    case Failure(e) => Failure(e)
    case Success(step) =>
      match Deliver(rt.(conf := step.store), step.notices)
      case Failure(e) => Failure(e)
      case Success(rt1) => TriggerRefreshables(rt1)
  }

  /** Reverting a changed key reaches every binding of the key: each member
      that accepts the value its converter decodes from the restored text holds
      that value afterwards, unless a later binding writes the same member. */
  lemma RevertKeySyncs(rt: Runtime, key: string, i: nat)
    requires rt.initialized && rt.syncing && rt.conf.observed
    requires Configuration.Consistent(rt.conf) && key in rt.conf.changed
    requires forall j :: 0 <= j < |Lookup(rt.directory, key)| ==> Safe(Lookup(rt.directory, key)[j], rt.world)
    requires var bs := Lookup(rt.directory, key);
      var text := Some(rt.conf.changed[key]);
      && i < |bs|
      && Writable(rt.conf.converters, bs[i], rt.world, text)
      && MemberOf(rt.world[bs[i].component], bs[i].field).Some?
      && (forall j :: i < j < |bs| ==> bs[j].component != bs[i].component || bs[j].field != bs[i].field)
    ensures RevertKey(rt, key).Success?
    ensures var bs := Lookup(rt.directory, key);
      Holds(RevertKey(rt, key).value.world, bs[i].component, bs[i].field,
            Decoded(rt.conf.converters, bs[i], Some(rt.conf.changed[key])).value)
  {
    var text := rt.conf.changed[key];
    var step := Configuration.RevertKey(rt.conf, key).value;
    assert step.notices == [Configuration.Notice(key, text)];
    assert step.store.converters == rt.conf.converters;
    var rt1 := rt.(conf := step.store);
    DeliverOne(rt1, Configuration.Notice(key, text));
    assert key in rt.directory;
    SyncDelivers(rt.conf.converters, rt.directory[key], rt.world, Some(text), i);
  }

  /** Settings.Revert() brings a store that tracks its baseline back to it and
      refreshes each tracked component once more. */
  lemma RevertRestores(rt: Runtime, base: map<string, string>, order: seq<string>)
    requires Configuration.Tracks(rt.conf, base) && Enumerates(order, rt.conf.changed.Keys)
    requires Revert(rt, order).Success?
    ensures Revert(rt, order).value.conf.settings == base
    ensures !Configuration.Dirty(Revert(rt, order).value.conf)
    ensures Revert(rt, order).value.refreshLog == rt.refreshLog + rt.refreshables
  {
    Configuration.RevertRestoresBaseline(rt.conf, base, order);
  }

  /** The static constructor: a store with the default converters and the
      resolution converter, no callback, and PushBindingSet installed as
      BindingSet.onActivated. */
  function Boot(rt: Runtime): (r: Runtime)
    ensures r.conf.converters.Keys == {IntTag, BoolTag, TextTag, ResolutionTag}
    ensures Converters.Keyed(r.conf.converters)
    ensures !r.conf.loaded && !r.conf.observed && !r.syncing && !r.initialized && r.activator
    ensures r.allReferenced == rt.allReferenced && r.world == rt.world
  {
    var conf := Configuration.AddConverter(Configuration.Create(), Converters.ResolutionConverter).0;
    rt.(conf := conf, syncing := false, initialized := false, directory := map[], refreshables := [], activator := true)
  }

  /** Until Initialize has loaded the store, Settings.Set, Settings.Revert()
      and Settings.Revert(key) throw, whatever the key and value. */
  lemma BootThrows(rt: Runtime, key: string, v: Value)
    ensures Set(Boot(rt), key, v).Failure?
    ensures Revert(Boot(rt), []) == Failure(NullReference)
    ensures RevertKey(Boot(rt), key) == Failure(NullReference)
  {
    Configuration.UnloadedThrows(Boot(rt).conf, key, v, [], []);
  }

  /** Initialize(configuration): fresh directory and refreshables, SyncValue
      installed as OnChange unless the store already has a callback
      (`ownSync` tells whether that callback is SyncValue), the store reads
      `lines` as its file, and every referenced group is pushed. */
  function Initialize(rt: Runtime, conf: Configuration.Store, ownSync: bool, lines: seq<string>): (r: Result<Runtime, Exn>)
    ensures r.Success? <==> Configuration.Load(conf, lines).Success? && Rebind(Setup(rt, conf, ownSync, Configuration.Load(conf, lines).value)).Success?
    ensures r.Success? ==> Ready(r.value) && r.value.conf.observed
    ensures r.Success? ==> r.value.syncing == (!conf.observed || ownSync)
    ensures r.Success? ==> r.value.conf.settings == LineFormat.ParseSettings(lines).value
    ensures r.Success? ==> !Configuration.Dirty(r.value.conf)
  {
    match Configuration.Load(conf, lines)
    case Failure(e) => Failure(e)
    case Success(st) => Rebind(Setup(rt, conf, ownSync, st))
  }

  /** The state Initialize leaves before Rebind. */
  function Setup(rt: Runtime, conf: Configuration.Store, ownSync: bool, loaded: Configuration.Store): Runtime {
    rt.(conf := loaded.(observed := true), syncing := !conf.observed || ownSync, initialized := true,
        directory := map[], refreshables := [])
  }

  /** Settings.Reset: the store reloads `lines` (its default file copied in
      place) and every referenced group is pushed again; before Initialize
      either step throws. */
  function Reset(rt: Runtime, lines: seq<string>): (r: Result<Runtime, Exn>)
    ensures !rt.conf.loaded ==> r == Failure(NullReference)
    ensures !Ready(rt) ==> r.Failure?
    ensures r.Success? ==> LineFormat.ParseSettings(lines).Success?
    ensures r.Success? ==> r.value.conf.settings == LineFormat.ParseSettings(lines).value
    ensures r.Success? ==> !Configuration.Dirty(r.value.conf)
    ensures r.Success? ==> r.value.syncing == rt.syncing && r.value.conf.observed == rt.conf.observed
  {
    match Configuration.Reset(rt.conf, lines)
    case Failure(e) => Failure(e)
    case Success(st) => Rebind(rt.(conf := st))
  }
}

=== FILE: text.dfy ===
/** The parts of System.String the core relies on: Trim and Split(char). */
module Text {

  /** Char.IsWhiteSpace: the characters String.Trim() removes. */
  predicate IsWhiteSpace(c: char) {
    var n := c as int;
    n == 0x20 || (0x09 <= n <= 0x0D) || n == 0x85 || n == 0xA0 || n == 0x1680
    || (0x2000 <= n <= 0x200A) || n == 0x2028 || n == 0x2029 || n == 0x202F
    || n == 0x205F || n == 0x3000
  }

  /** The white space Int32.Parse accepts around a number. */
  predicate IsNumberWhite(c: char) {
    var n := c as int;
    n == 0x20 || (0x09 <= n <= 0x0D)
  }

  /** Drops the leading characters satisfying `white`: the result is the longest
      suffix of `s` that does not start with such a character. */
  function TrimStartBy(s: string, white: char -> bool): (r: string)
    ensures |r| <= |s| && r == s[|s| - |r|..]
    ensures r == [] || !white(r[0])
    ensures forall i :: 0 <= i < |s| - |r| ==> white(s[i])
    decreases |s|
  {
    if |s| > 0 && white(s[0]) then
      TrimStartBy(s[1..], white)
    else
      s
  }

  /** Drops the trailing characters satisfying `white`: the result is the longest
      prefix of `s` that does not end with such a character. */
  function TrimEndBy(s: string, white: char -> bool): (r: string)
    ensures |r| <= |s| && r == s[..|r|]
    ensures r == [] || !white(r[|r| - 1])
    ensures forall i :: |r| <= i < |s| ==> white(s[i])
    decreases |s|
  {
    if |s| > 0 && white(s[|s| - 1]) then
      TrimEndBy(s[..|s| - 1], white)
    else
      s
  }

  /** Drops `white` characters at both ends. */
  function TrimBy(s: string, white: char -> bool): (r: string)
    ensures |r| <= |s|
    ensures r == [] || (!white(r[0]) && !white(r[|r| - 1]))
  {
    TrimEndBy(TrimStartBy(s, white), white)
  }

  /** Trimming only removes characters satisfying `white`. */
  lemma TrimKeeps(s: string, white: char -> bool, c: char)
    requires c in s && !white(c)
    ensures c in TrimBy(s, white)
  {
    var k :| 0 <= k < |s| && s[k] == c;
    var t := TrimStartBy(s, white);
    var d := |s| - |t|;
    assert t[k - d] == c;
    var r := TrimEndBy(t, white);
    assert r[k - d] == c;
  }

  /** String.Trim(). */
  function Trim(s: string): string {
    TrimBy(s, IsWhiteSpace)
  }

  /** A string Trim leaves alone. */
  predicate IsTrimmed(s: string) {
    s == [] || (!IsWhiteSpace(s[0]) && !IsWhiteSpace(s[|s| - 1]))
  }

  lemma {:induction false} TrimStartSkipsWhitePrefix(pre: string, s: string, white: char -> bool)
    requires forall i :: 0 <= i < |pre| ==> white(pre[i])
    ensures TrimStartBy(pre + s, white) == TrimStartBy(s, white)
    decreases |pre|
  {
    if |pre| > 0 {
      assert (pre + s)[1..] == pre[1..] + s;
      TrimStartSkipsWhitePrefix(pre[1..], s, white);
    } else {
      assert pre + s == s;
    }
  }

  lemma {:induction false} TrimEndSkipsWhiteSuffix(s: string, post: string, white: char -> bool)
    requires forall i :: 0 <= i < |post| ==> white(post[i])
    ensures TrimEndBy(s + post, white) == TrimEndBy(s, white)
    decreases |post|
  {
    if |post| > 0 {
      assert (s + post)[..|s + post| - 1] == s + post[..|post| - 1];
      TrimEndSkipsWhiteSuffix(s, post[..|post| - 1], white);
    } else {
      assert s + post == s;
    }
  }

  /** Trimming a string padded with white space on both sides gives back the
      string, provided it has no white space at its own ends. */
  lemma TrimPadded(pre: string, s: string, post: string, white: char -> bool)
    requires forall i :: 0 <= i < |pre| ==> white(pre[i])
    requires forall i :: 0 <= i < |post| ==> white(post[i])
    requires s == [] || (!white(s[0]) && !white(s[|s| - 1]))
    ensures TrimBy(pre + s + post, white) == s
  {
    assert pre + s + post == pre + (s + post);
    TrimStartSkipsWhitePrefix(pre, s + post, white);
    if s == [] {
      assert s + post == post;
    } else {
      assert TrimStartBy(s + post, white) == s + post;
      TrimEndSkipsWhiteSuffix(s, post, white);
    }
  }

  /** Trim is idempotent and leaves trimmed strings alone. */
  lemma TrimIdempotent(s: string)
    ensures IsTrimmed(Trim(s))
    ensures Trim(Trim(s)) == Trim(s)
    ensures IsTrimmed(s) ==> Trim(s) == s
  {
    TrimPadded([], Trim(s), [], IsWhiteSpace);
    assert [] + Trim(s) + [] == Trim(s);
    if IsTrimmed(s) {
      TrimPadded([], s, [], IsWhiteSpace);
      assert [] + s + [] == s;
    }
  }

  /** Number of occurrences of `c` in `s`. */
  function Count(s: string, c: char): nat {
    if |s| == 0 then 0 else (if s[0] == c then 1 else 0) + Count(s[1..], c)
  }

  /** String.Split(sep): the pieces between separators, empty pieces included. */
  function Split(s: string, sep: char): (parts: seq<string>)
    ensures |parts| == Count(s, sep) + 1
    ensures forall i :: 0 <= i < |parts| ==> sep !in parts[i]
    decreases |s|
  {
    if |s| == 0 then [""]
    else
      var rest := Split(s[1..], sep);
      if s[0] == sep then [""] + rest
      else [[s[0]] + rest[0]] + rest[1..]
  }

  /** String.Join(sep, parts), the inverse of Split. */
  function Join(parts: seq<string>, sep: char): string
    requires |parts| >= 1
  {
    if |parts| == 1 then parts[0] else parts[0] + [sep] + Join(parts[1..], sep)
  }

  lemma {:induction false} SplitNoSeparator(s: string, sep: char)
    requires sep !in s
    ensures Split(s, sep) == [s]
    decreases |s|
  {
    if |s| > 0 {
      assert s[0] in s;
      assert forall c :: c in s[1..] ==> c in s;
      SplitNoSeparator(s[1..], sep);
      assert [s[0]] + s[1..] == s;
    }
  }

  /** Splitting at the first separator: the piece before it, then the rest. */
  lemma {:induction false} SplitAtFirst(a: string, b: string, sep: char)
    requires sep !in a
    ensures Split(a + [sep] + b, sep) == [a] + Split(b, sep)
    decreases |a|
  {
    var s := a + [sep] + b;
    if |a| == 0 {
      assert s[0] == sep && s[1..] == b;
    } else {
      assert s[0] == a[0] && s[1..] == a[1..] + [sep] + b;
      assert forall c :: c in a[1..] ==> c in a;
      SplitAtFirst(a[1..], b, sep);
      assert [a[0]] + a[1..] == a;
    }
  }

  /** Joining the pieces of a split gives back the string. */
  lemma {:induction false} JoinSplit(s: string, sep: char)
    ensures Join(Split(s, sep), sep) == s
    decreases |s|
  {
    if |s| > 0 {
      var rest := Split(s[1..], sep);
      JoinSplit(s[1..], sep);
      if s[0] != sep && |rest| > 1 {
        assert Join(rest, sep) == rest[0] + [sep] + Join(rest[1..], sep);
        assert Join(Split(s, sep), sep) == [s[0]] + rest[0] + [sep] + Join(rest[1..], sep);
      }
      assert [s[0]] + s[1..] == s;
    }
  }

  /** Splitting a join of separator-free pieces gives back the pieces. */
  lemma {:induction false} SplitJoin(parts: seq<string>, sep: char)
    requires |parts| >= 1
    requires forall i :: 0 <= i < |parts| ==> sep !in parts[i]
    ensures Split(Join(parts, sep), sep) == parts
    decreases |parts|
  {
    if |parts| == 1 {
      SplitNoSeparator(parts[0], sep);
    } else {
      SplitJoin(parts[1..], sep);
      SplitAtFirst(parts[0], Join(parts[1..], sep), sep);
      assert [parts[0]] + parts[1..] == parts;
    }
  }
}

=== FILE: types.dfy ===
/** The value types a setting can hold and the tags the converter registry is
    keyed by (the `Type` objects of the C# code). */
module Types {

  const MinInt32: int := -0x8000_0000
  const MaxInt32: int := 0x7FFF_FFFF

  /** A C# `int`. */
  type int32 = i: int | MinInt32 <= i <= MaxInt32

  /** typeof(int), typeof(bool), typeof(string), typeof(Resolution),
      typeof(KeyCode), and any other type (float, Color, ...), known by its
      assembly-qualified name, which no value of this model has. */
  datatype TypeTag = IntTag | BoolTag | TextTag | ResolutionTag | KeyCodeTag | OtherTag(name: string)

  /** A boxed value of one of the tagged types; a KeyCode is known by its enum name. */
  datatype Value =
    | IntV(i: int32)
    | BoolV(b: bool)
    | TextV(s: string)
    | ResV(width: int32, height: int32)
    | KeyV(name: string)

  /** `value.GetType()`. */
  function TagOf(v: Value): TypeTag {
    match v
    case IntV(_) => IntTag
    case BoolV(_) => BoolTag
    case TextV(_) => TextTag
    case ResV(_, _) => ResolutionTag
    case KeyV(_) => KeyCodeTag
  }
}

=== FILE: wrappers.dfy ===
/** Failure-compatible wrappers used throughout the model: `Option` stands for a
    C# reference that may be null, `Result` for a call that either returns or throws. */
module Wrappers {

  datatype Option<+T> = None | Some(value: T)

  datatype Result<+T, +E> = Success(value: T) | Failure(error: E) {

    predicate IsFailure() {
      Failure?
    }

    function PropagateFailure<U>(): Result<U, E>
      requires Failure?
    {
      Failure(error)
    }

    function Extract(): T
      requires Success?
    {
      value
    }
  }
}
